=== FILE: README.md ===
# Onodera clinic dashboard — a Dafny model of its screen logic and calendar edge function

The Onodera dashboard is a React front end for an aesthetics clinic. It has
screens for employees, treatments, clients, a calendar and billing, and a
Supabase edge function, `google-calendar`, that talks to the Google Calendar
API. This project models the pure logic inside those pieces and proves what
that logic promises. The model covers:

- **GoogleCalendar** (`google_calendar.dfy`): the edge function's request
  handler.
  - It answers OPTIONS, rejects a request without a user, and dispatches on
    `action`.
  - The three actions are the connection check, the event sync and event
    creation.
  - The sync maps provider items to local events.
  - Creation builds the outbound event draft and returns the created event.
  - Every thrown error becomes a status-500 reply carrying its message.
  - The session data `getSession` resolves to and the outcome of each
    `fetch` are inputs. The actions read the provider token off that data in
    a way that never finds it (see Findings); the handler is modelled both
    as written and with the token read as intended.
- **Employees** (`employees.dfy`): the search filter, the comma-separated
  specialties parser, the edit, add and delete list operations, the edit
  dialog, the initials avatar and the role badge colour.
- **Treatments** (`treatments.dfy`): the search filter, edit, add and delete,
  the edit dialog with its `toString` / `Number` round trip for price and
  duration, and the category badge colour.
- **Clients** (`clients.dfy`): the null-aware search, the null-to-`""` form
  mapping, the dialog reset, and the update or insert request the save sends.
- **Calendar** (`calendar.dfy`): the March 2024 grid, the day-cell click
  guard, and the appointment dialog's edit, create and delete handlers.
- **Billing** (`billing.dfy`): the revenue, expense and profit totals over
  the monthly table, and the status label and colour switches.

Shared modules model the JavaScript behaviour this code relies on:

- `Js`: truthiness of possibly missing strings, `a || b`, and template
  rendering of `undefined`.
- `Seqs`: `filter` and `map`.
- `Strings`: `toLowerCase`/`toUpperCase`, `includes`, `trim`, `split` and
  `join`.
- `Decimal`: `Number` on form text and `toString` of whole numbers.
- `ObjectLookup`: `obj[key] || fallback` on an object literal, which also
  sees the members inherited from `Object.prototype`.

## Model

| member | source | states |
|---|---|---|
| GoogleCalendar.MapEvent | supabase/functions/google-calendar/index.ts:118-127 | the local id is `google-` followed by the provider id, and `google_event_id` is the provider id; the title is the summary when truthy, else "Sem título"; start and end take `dateTime` when truthy, else `date`; description and location default to ""; source is "google" |
| GoogleCalendar.PickTime | supabase/functions/google-calendar/index.ts:121-122 | a missing time object gives no time; a truthy `dateTime` wins; otherwise `date` is used |
| GoogleCalendar.MapItems | supabase/functions/google-calendar/index.ts:118-127 | with no `items` the result is empty; otherwise there is one event per item, at the same position |
| GoogleCalendar.MapItemsKeepsOrder | supabase/functions/google-calendar/index.ts:118-127 | mapping two runs of items yields their two runs of events in the same order |
| GoogleCalendar.LocalIdRoundTrip | supabase/functions/google-calendar/index.ts:119 | stripping the `google-` prefix from a local id gives back the provider id |
| GoogleCalendar.LocalIdInjective | supabase/functions/google-calendar/index.ts:119 | two provider ids give the same local id exactly when they are equal |
| GoogleCalendar.MappedIdsAgree | supabase/functions/google-calendar/index.ts:119-126 | a mapped event's `google_event_id` is what stripping the prefix from its local id gives |
| GoogleCalendar.MissingIdCollides | supabase/functions/google-calendar/index.ts:119 | an item with no id and an item whose id is the text "undefined" get the same local id |
| GoogleCalendar.SyncedEventsDistinct | supabase/functions/google-calendar/index.ts:118-127 | every synced event is marked "google", and items with different ids map to events with different local ids |
| GoogleCalendar.BuildDraft | supabase/functions/google-calendar/index.ts:161-173 | the summary is the title; the description is the given one when truthy, else "Cliente: …\nProfissional: …"; start is the given start; end is the given end when truthy, else the start; both carry the America/Sao_Paulo time zone; location defaults to "" |
| GoogleCalendar.DefaultDescriptionLines | supabase/functions/google-calendar/index.ts:163 | the default description splits on line breaks into exactly the client line and the professional line when neither name holds a line break |
| GoogleCalendar.Created | supabase/functions/google-calendar/index.ts:199-204 | the returned event's id is `google-` plus the created id, unless the request body carries an `id`, which replaces it; `google_event_id` is the created id and source is "google" |
| GoogleCalendar.CreatedIdNamesProviderEvent | supabase/functions/google-calendar/index.ts:199-204 | an event created from a body without `id` gives back its `google_event_id` when the prefix is stripped from its id; a body `id` without the prefix names no provider event |
| GoogleCalendar.ApiError | supabase/functions/google-calendar/index.ts:112 | a non-OK reply's message starts with "Google API error: " |
| GoogleCalendar.ApiErrorNamesStatus | supabase/functions/google-calendar/index.ts:112 | two statuses give the same message exactly when they are equal, and no such message equals the missing-token one |
| GoogleCalendar.CheckConnection | supabase/functions/google-calendar/index.ts:65-87 | connected exactly when a provider token is present and the probe answered with `ok` |
| GoogleCalendar.SyncEvents | supabase/functions/google-calendar/index.ts:89-151 | no token fails with "No Google access token found"; a thrown fetch fails with its message; a non-OK reply fails with "Google API error: <status>"; it succeeds exactly otherwise, with the mapped items |
| GoogleCalendar.CreateEvent | supabase/functions/google-calendar/index.ts:153-209 | the same three failures as the sync; on success it returns the created event built from the request body and the created id |
| GoogleCalendar.ConnectedExactlyWhenSyncSucceeds | supabase/functions/google-calendar/index.ts:65-113 | given replies with the same outcome, the connection check is true exactly when the sync succeeds |
| GoogleCalendar.Handle | supabase/functions/google-calendar/index.ts:11-63 | with the token read as intended: OPTIONS gives the preflight reply; every reply has status 200 or 500, and 500 exactly when it carries an error; no user gives "Unauthorized"; a missing or unknown action gives "Invalid action"; a signed-in check answers 200 with the connection flag; a successful sync or create answers 200 with the events or the created event |
| GoogleCalendar.ProviderTokenAsWritten | supabase/functions/google-calendar/index.ts:68-70 | reading `provider_token` off the `{ session }` wrapper never gives a truthy token |
| GoogleCalendar.ProviderToken | supabase/functions/google-calendar/index.ts:68-70 | the intended reading: no session gives no token |
| GoogleCalendar.HandleAsWritten | supabase/functions/google-calendar/index.ts:11-63 | as written, a signed-in check always answers `connected: false` and sync and create always answer 500 with the missing-token message; requests that reach no action are answered as by `Handle` |
| GoogleCalendar.AsWrittenMissesSessionToken | supabase/functions/google-calendar/index.ts:68-81 | a signed-in check with a session token the API accepts answers `connected: true` as intended and `connected: false` as written |
| GoogleCalendar.SessionTokenReachesApi | supabase/functions/google-calendar/index.ts:65-127 | read as intended, a session's non-empty provider token makes the check report the probe's `ok` and a successful listing return its mapped events |
| GoogleCalendar.NoTokenOutcomes | supabase/functions/google-calendar/index.ts:33-61 | without a provider token the connection check answers `connected: false` with 200, while sync and create answer 500 with the missing-token message |
| GoogleCalendar.FailsExactlyWhenActionFails | supabase/functions/google-calendar/index.ts:33-61 | for a signed-in user, sync and create answer 500 exactly when they fail, carrying the failure's message |
| Employees.FilterEmployees | src/pages/Employees.tsx:70-73 | the search shows no more employees than the list holds, and every one shown matches the term in its name or role |
| Employees.FilterEmployeesExact | src/pages/Employees.tsx:70-73 | an employee is shown exactly when its lower-cased name or role includes the lower-cased term, and as often as it occurs in the list |
| Employees.FilterEmployeesKeepsOrder | src/pages/Employees.tsx:70-73 | filtering two runs of the list gives their two filtered runs, so the order is kept |
| Employees.EmptySearchShowsAll | src/pages/Employees.tsx:70-73 | an empty search shows the whole list |
| Employees.ParseSpecialties | src/pages/Employees.tsx:76 | no parsed specialty is empty: pieces that trim to nothing are dropped |
| Employees.ParsedSpecialtiesAreClean | src/pages/Employees.tsx:76 | every parsed specialty is non-empty, has no surrounding whitespace and holds no comma |
| Employees.ParseOnePiece | src/pages/Employees.tsx:76 | a piece without a comma parses to its trim, or to nothing when it trims to ""; with the concatenation lemma this fixes every parse |
| Employees.ParseSpecialtiesConcat | src/pages/Employees.tsx:76 | parsing two texts joined by a comma gives the two parses one after the other, so the input order is kept |
| Employees.SpecialtiesRoundTrip | src/pages/Employees.tsx:76 | joining clean specialties with ", " as the edit dialog does and parsing the text back gives the same list |
| Employees.EditEmployees | src/pages/Employees.tsx:78-83 | the length is unchanged and every employee with another id is unchanged; each one with the edited id takes the form's fields and parsed specialties and keeps its id, status and avatar |
| Employees.EditIdempotent | src/pages/Employees.tsx:78-83 | saving the same form twice gives the same list as saving it once |
| Employees.AddEmployee | src/pages/Employees.tsx:88-96 | the old list is kept as a prefix, and one employee is appended with id `length + 1`, status "active", an empty avatar and the form's fields |
| Employees.DeleteEmployee | src/pages/Employees.tsx:120-121 | deletion never lengthens the list, and no remaining employee has the id |
| Employees.DeleteEmployeeExact | src/pages/Employees.tsx:120-121 | after deletion no employee has the id, and every other employee remains as often as before |
| Employees.DeleteKeepsOrder | src/pages/Employees.tsx:120-121 | deleting from two runs of the list gives their two results in the same order |
| Employees.DeleteAbsentId | src/pages/Employees.tsx:120-121 | deleting an id nobody has leaves the list unchanged |
| Employees.AddAfterDeleteReusesId | src/pages/Employees.tsx:88-121 | in a list numbered 1..n, deleting any id below n and then adding gives two employees with id n, and a later delete of n removes both |
| Employees.OpenEdit | src/pages/Employees.tsx:108-118 | the dialog opens on the employee with its four text fields and its specialties joined by ", " |
| Employees.Submit | src/pages/Employees.tsx:75-106 | the edit branch when an employee is being edited, the add branch otherwise; then the dialog closes and the form is blanked |
| Employees.SaveUnchangedKeepsList | src/pages/Employees.tsx:75-118 | opening an employee with clean specialties and saving unchanged leaves the list as it was, when no other employee shares its id |
| Employees.Initials | src/pages/Employees.tsx:137-139 | the initials are at most two characters |
| Employees.InitialsStartWithName | src/pages/Employees.tsx:137-139 | a name not starting with a space gives initials starting with its upper-cased first letter |
| Employees.InitialsOfOneWord | src/pages/Employees.tsx:137-139 | a one-word name gives its upper-cased first letter |
| Employees.InitialsOfTwoWords | src/pages/Employees.tsx:137-139 | two words separated by a space give both upper-cased first letters |
| Employees.RoleColorAsWritten | src/pages/Employees.tsx:128-135 | as written: the three known roles get purple, blue and green; any other role gets the inherited built-in exactly when it is an `Object.prototype` key, and gray otherwise |
| Employees.RoleColorConstructorIsNotGray | src/pages/Employees.tsx:128-135 | as written, the role "constructor" yields the inherited `Object.prototype.constructor` instead of the gray default |
| Employees.RoleColor | src/pages/Employees.tsx:128-135 | the three known roles get purple, blue and green; any other role gets gray |
| Employees.KnownRolesAreOwn | src/pages/Employees.tsx:129-133 | no known role is an `Object.prototype` key |
| Employees.RoleColorAgreesOffPrototype | src/pages/Employees.tsx:128-135 | the written lookup and the intended one agree exactly on the roles that are not `Object.prototype` keys |
| Treatments.FilterTreatments | src/pages/Treatments.tsx:66-69 | the search shows no more treatments than the list holds, and every one shown matches the term in its name or category |
| Treatments.FilterTreatmentsExact | src/pages/Treatments.tsx:66-69 | a treatment is shown exactly when its lower-cased name or category includes the lower-cased term, and as often as it occurs in the list |
| Treatments.FilterTreatmentsKeepsOrder | src/pages/Treatments.tsx:66-69 | filtering keeps the order of the list |
| Treatments.EmptySearchShowsAll | src/pages/Treatments.tsx:66-69 | an empty search shows the whole list |
| Treatments.EditTreatments | src/pages/Treatments.tsx:72-77 | the length is unchanged and other treatments are unchanged; each one with the edited id takes the form's text fields and the `Number` of its price and duration, and keeps its id and status |
| Treatments.AddTreatment | src/pages/Treatments.tsx:82-90 | the old list is kept as a prefix, and one treatment is appended with id `length + 1`, status "active", the form's fields and the numbers read from it |
| Treatments.DeleteTreatment | src/pages/Treatments.tsx:114-115 | deletion never lengthens the list, and no remaining treatment has the id |
| Treatments.DeleteTreatmentExact | src/pages/Treatments.tsx:114-115 | after deletion no treatment has the id, and every other treatment remains as often as before |
| Treatments.DeleteKeepsOrder | src/pages/Treatments.tsx:114-115 | deletion keeps the order of the treatments that stay |
| Treatments.OpenEdit | src/pages/Treatments.tsx:102-112 | the dialog opens on the treatment; a whole price or duration reads back through `Number` as itself |
| Treatments.NumberOfAmountText | src/pages/Treatments.tsx:107-108 | `Number(a.toString())` is `a` for a whole amount |
| Treatments.Submit | src/pages/Treatments.tsx:71-100 | the edit branch when a treatment is being edited, the add branch otherwise; then the dialog closes and the form is blanked |
| Treatments.SaveUnchangedKeepsList | src/pages/Treatments.tsx:71-112 | opening a treatment with whole price and duration and saving unchanged leaves the list as it was, when no other treatment shares its id |
| Treatments.CategoryColorToStringIsNotGray | src/pages/Treatments.tsx:122-129 | as written, the category "toString" yields the inherited `Object.prototype.toString` instead of the gray default |
| Treatments.CategoryColorAsWritten | src/pages/Treatments.tsx:122-129 | as written: the three known categories get blue, purple and green; any other category gets the inherited built-in exactly when it is an `Object.prototype` key, and gray otherwise |
| Treatments.CategoryColor | src/pages/Treatments.tsx:122-129 | the three known categories get blue, purple and green; any other category gets gray |
| Treatments.KnownCategoriesAreOwn | src/pages/Treatments.tsx:123-127 | no known category is an `Object.prototype` key |
| Treatments.CategoryColorAgreesOffPrototype | src/pages/Treatments.tsx:122-129 | the written lookup and the intended one agree exactly on the categories that are not `Object.prototype` keys |
| Clients.FilterClients | src/pages/Clients.tsx:186-189 | the search shows no more clients than the list holds; every one shown matches the term and has a non-null `nome` or `area_interesse` |
| Clients.FilterClientsExact | src/pages/Clients.tsx:186-189 | a client is shown exactly when its `nome` or `area_interesse` is non-null and includes the term, ignoring case |
| Clients.FilterClientsKeepsOrder | src/pages/Clients.tsx:186-189 | filtering keeps the order of the list |
| Clients.EmptySearchHidesNullRows | src/pages/Clients.tsx:186-189 | with an empty search, exactly the clients with a non-null `nome` or `area_interesse` are shown |
| Clients.NullRowsNeverShown | src/pages/Clients.tsx:186-189 | clients whose `nome` and `area_interesse` are both null are never shown, whatever the search |
| Clients.OpenEdit | src/pages/Clients.tsx:130-143 | the dialog opens on the client, each of the eight fields holding its column, or "" when that is null |
| Clients.CloseDialog | src/pages/Clients.tsx:171-184 | the dialog closes, nothing is being edited, and all eight fields are "" |
| Clients.SaveRequest | src/pages/Clients.tsx:71-111 | pressing save sends nothing exactly when the `required` `nome` field (line 227) is empty; otherwise it sends exactly the eight form fields, as an update of the edited client's id when one is being edited and as an insert otherwise |
| Clients.SaveUnchangedRewritesNulls | src/pages/Clients.tsx:71-143 | opening a client and saving unchanged is blocked exactly when its `nome` is null or empty; otherwise it sends an update of that client, which reads back unchanged exactly when none of its other seven form columns was null |
| Clients.EditTargets | src/pages/Clients.tsx:339-364 | only rows the search shows carry an Edit button, so every editable row matches the search |
| Clients.NullRowCannotBeEdited | src/pages/Clients.tsx:186-364 | a client whose `nome` and `area_interesse` are both null has no Edit button under any search, and opened anyway its save would be blocked by the `required` name |
| Clients.EmptyNameBlocksSave | src/pages/Clients.tsx:219-227 | a client whose `nome` is "" opens with a save that is blocked until a non-empty name is typed, after which the update carries that name |
| Calendar.GenerateCalendarDays | src/pages/Calendar.tsx:66-82 | 36 cells: five blanks, then cell i holds day i − 4 for the days 1 to 31, so the result is a grid the click and ordering lemmas apply to |
| Calendar.GridDaysAscendingOnce | src/pages/Calendar.tsx:66-82 | the days strictly increase along the grid, and each of 1..31 sits in exactly one cell |
| Calendar.ClickCell | src/pages/Calendar.tsx:203 | clicking a blank cell changes nothing; clicking a day selects it |
| Calendar.ClicksStayInMonth | src/pages/Calendar.tsx:200-203 | clicking any grid cell keeps the selected day within 1..31 |
| Calendar.OpenEdit | src/pages/Calendar.tsx:45-55 | the dialog opens on the appointment with its title, client, professional and time, and a date that reads back as the selected day |
| Calendar.CreateAppointment | src/pages/Calendar.tsx:35-43 | the dialog closes and all five fields become ""; the selected day and the edited appointment stay |
| Calendar.SaveKeepsEditTarget | src/pages/Calendar.tsx:35-55 | after editing an appointment and pressing save, the screen still holds that appointment as the one being edited |
| Calendar.DeleteAppointment | src/pages/Calendar.tsx:57-63 | deleting an appointment leaves the screen as it was |
| Billing.Sum | src/pages/Billing.tsx:56-57 | over a column with no negative entry, the total is non-negative and at least every month's entry |
| Billing.Reduce | src/pages/Billing.tsx:56-57 | the `reduce` loop computes the column's sum over the rows |
| Billing.ProfitIsSumOfProfits | src/pages/Billing.tsx:58 | when every row's profit is its revenue less its expenses, total revenue less total expenses is the sum of the profits |
| Billing.MonthlyRevenueConsistent | src/pages/Billing.tsx:11-18 | every row of the monthly table has profit equal to revenue less expenses |
| Billing.ShownSums | src/pages/Billing.tsx:11-18 | the table's revenue, expenses and profit sum to 318000, 99500 and 218500 |
| Billing.Totals | src/pages/Billing.tsx:56-58 | the cards show total revenue 318000, total expenses 99500, and a profit of 218500, which equals the sum of the profit column |
| Billing.StatusText | src/pages/Billing.tsx:47-54 | paid, pending and overdue read Pago, Pendente and Vencido; any other status is shown as it is |
| Billing.StatusColor | src/pages/Billing.tsx:38-45 | paid, pending and overdue get green, yellow and red; any other status gets gray |
| Billing.GrayExactlyWhenUntranslated | src/pages/Billing.tsx:38-54 | a status badge is gray exactly when its label is the raw status |
| Billing.LabelsDistinguishKnownStatuses | src/pages/Billing.tsx:38-54 | the three known statuses get three different labels; a status spelled "Pago" shows the same label as "paid" but a different colour |
| Decimal.ToNumber | src/pages/Treatments.tsx:75-87 | the text reads as a whole number exactly when, once trimmed, it is all decimal digits, and then it is the value of those digits read most significant first, leading zeros included; blank text reads as 0; any other text is kept as an unmodelled amount |
| Decimal.PaddedNumeral | src/pages/Treatments.tsx:75-87 | `Number(" 0120 ")` is 120: surrounding spaces and leading zeros do not change the value |
| Decimal.NatToString | src/pages/Calendar.tsx:52 | the rendering is a non-empty run of decimal digits without a leading zero |
| Decimal.DigitsValueOfNatToString | src/pages/Treatments.tsx:107-108 | reading the digits of a rendered number gives the number back |
| Decimal.NatToStringInjective | src/pages/Treatments.tsx:107-108 | different numbers render as different strings |
| ObjectLookup.LookupOr | src/pages/Employees.tsx:134 | the result is an inherited built-in exactly when the literal has no own key and the key is an `Object.prototype` member, and then it is that member; a non-empty own string is returned; otherwise the fallback |
| Strings.Lower | src/pages/Employees.tsx:71-72 | same length; no ASCII capital remains; every other character is kept; each character differs from the input only in ASCII case |
| Strings.Upper | src/pages/Employees.tsx:138 | same length; no ASCII small letter remains; every other character is kept; each character differs from the input only in ASCII case |
| Strings.ContainsAt | src/pages/Employees.tsx:71-72 | `includes` is true whenever the needle occurs at some index of the haystack |
| Strings.ContainsWitness | src/pages/Employees.tsx:71-72 | when `includes` is true, the needle occurs at some index of the haystack |
| Strings.ContainsEmpty | src/pages/Clients.tsx:187-188 | every string includes the empty string |
| Strings.Trim | src/pages/Employees.tsx:76 | the result is the input with a leading and a trailing run of ECMAScript white-space and line-terminator characters cut off, and it starts and ends with none of them, so exactly the outer whitespace is removed |
| Strings.TrimSpaceAround | src/pages/Employees.tsx:76 | one space on each side of a trimmed, non-empty string is exactly what `trim` removes |
| Strings.Split | src/pages/Employees.tsx:76 | there is always at least one piece, and the empty string splits into the single empty piece |
| Strings.SplitCount | src/pages/Employees.tsx:76 | there is one piece more than there are separators |
| Strings.SplitPiecesFree | src/pages/Employees.tsx:76 | no piece contains the separator |
| Strings.JoinSplit | src/pages/Employees.tsx:76 | joining the pieces with the separator gives back the string |
| Strings.Join | src/pages/Employees.tsx:115 | no pieces join to the empty string, and the result starts with the first piece |
| Strings.SplitJoin | src/pages/Employees.tsx:115 | splitting a join undoes it when no piece contains the separator |
| Decimal.NumberOfToString | src/pages/Treatments.tsx:107-108 | `Number` of a whole number's decimal rendering is that number (exact in the model; JavaScript agrees up to 2^53) |

## Left out

- Rendering, dialogs as widgets, toasts, charts, icons, `console` logging and navigation are left out. They display state and decide nothing, with two exceptions that are modelled: the Clients form's `required` name field, which stops the save (`Clients.SaveRequest`), and the Clients table's Edit buttons, which exist only for the rows the search shows (`Clients.EditTargets`). Other browser validation (the `type="email"` and `type="number"` inputs) is not modelled; the Employees and Treatments dialogs save through a button's `onClick`, so no form validation runs there.
- Supabase I/O is left out: `fetchClients`, the client delete with its `window.confirm`, and the hooks over the client library. The model stops at the request the screen builds; `Clients.Written` stands for the row as the table returns it after an update.
- The edge function's `agendamento` upsert and insert are left out. They are database side effects whose conflict rules live in the database.
- `fetch`, `serve`, CORS headers and `supabase.auth` are left out. Their results are inputs: the resolved user, the `{ session }` data `getSession` resolves to, and each call's thrown message or `ok`/`status`/body.
- Failures of `req.json()` and `response.json()`, a missing `Authorization` header, and a failing `getSession` are left out.
- GoogleCalendar.EventData: request-body values are modelled as strings or absent. JSON `null`, numbers and extra keys are left out, and so is a body key such as `source` that the spread would copy into the created event before the final fields.
- GoogleCalendar.CreateEvent: the draft `BuildDraft(data)` is what gets posted. The provider's reply is an input and does not depend on it.
- Time values are left out: `new Date()`, `toISOString` and the 30-day sync window depend on the wall clock.
- Decimal.ToNumber: reads a digit run as its exact whole value, while JavaScript's `Number` is a double that rounds runs above 2^53 (`"9007199254740993"` reads as 9007199254740992); the model does not round. It also handles only surrounding whitespace and plain decimal digits. Any other text (signs, fractions, exponents, hexadecimal, `NaN`) is kept as an `Unmodelled` amount rather than given its JavaScript number. `Decimal.AmountToString` renders such an amount as its raw text, while JavaScript renders the number read from it (`"1.50"` as `1.5`, `"abc"` as `NaN`); `Treatments.OpenEdit` shows such a price or duration that way.
- Decimal.NatToString: renders every whole number as plain digits, while JavaScript's `toString` switches to exponent form from 10^21 (`1e+21`) and can only render doubles; the model does not cover those values.
- Strings.Lower: `toLowerCase` is modelled on ASCII letters only. Full Unicode case mapping, where one character may become several, is left out.
- Strings.Upper: `toUpperCase` is modelled on ASCII letters only, for the same reason.
- Employees.Initials: works on characters, not UTF-16 code units, so a name starting with a character outside the Basic Multilingual Plane is not modelled as JavaScript would split it.
- Billing's payment-method and recent-transaction tables and its period selector only feed charts and lists, so they are left out.
- Register.tsx, Dashboard.tsx, Profile.tsx and the generated Supabase types are not part of this model.

## Findings

| source | as written | input that shows it | evidently intended | confidence | as-written member | corrected member |
|---|---|---|---|---|---|---|
| src/pages/Employees.tsx:128-135 | `colors[role] \|\| gray` on an object literal also finds the members inherited from `Object.prototype` | role "constructor" gives the `Object` constructor function as the badge class | any role other than the three listed gets the gray default | not executed | Employees.RoleColorAsWritten, shown by Employees.RoleColorConstructorIsNotGray | Employees.RoleColor, related by Employees.RoleColorAgreesOffPrototype |
| src/pages/Treatments.tsx:122-129 | `colors[category] \|\| gray` on an object literal also finds the members inherited from `Object.prototype` | category "toString" gives the `Object.prototype.toString` function as the badge class | any category other than the three listed gets the gray default | not executed | Treatments.CategoryColorAsWritten, shown by Treatments.CategoryColorToStringIsNotGray | Treatments.CategoryColor, related by Treatments.CategoryColorAgreesOffPrototype |
| supabase/functions/google-calendar/index.ts:68 | `const { data: session } = await supabase.auth.getSession()` binds `session` to the `{ session }` wrapper that supabase-js v2 resolves `data` to, so `session?.provider_token` (lines 70, 93, 157) is always `undefined` | a signed-in user whose session holds a valid Google token: `check_connection` answers `connected: false`, `sync_events` and `create_event` answer 500 "No Google access token found" | `const { data: { session } }`, reading the session's own `provider_token` | not executed | GoogleCalendar.HandleAsWritten over GoogleCalendar.ProviderTokenAsWritten, shown by GoogleCalendar.AsWrittenMissesSessionToken | GoogleCalendar.Handle over GoogleCalendar.ProviderToken, related by GoogleCalendar.SessionTokenReachesApi |

=== FILE: billing.dfy ===
/** The Billing screen (src/pages/Billing.tsx): the monthly figures table,
    the revenue, expense and profit totals shown on its cards, and the
    labels and badge colours of a transaction's status. */
module Billing {

  datatype MonthRow = MonthRow(name: string, revenue: int, expenses: int, profit: int)

  /** `monthlyRevenue`. */
  const MonthlyRevenue: seq<MonthRow> := [
    MonthRow("Jan", 45000, 15000, 30000),
    MonthRow("Fev", 52000, 16500, 35500),
    MonthRow("Mar", 38000, 14000, 24000),
    MonthRow("Abr", 61000, 18000, 43000),
    MonthRow("Mai", 55000, 17000, 38000),
    MonthRow("Jun", 67000, 19000, 48000)
  ]

  function Revenue(m: MonthRow): int { m.revenue }
  function Expenses(m: MonthRow): int { m.expenses }
  function Profit(m: MonthRow): int { m.profit }

  /** The left fold `rows.reduce((sum, m) => sum + field(m), 0)`. */
  function Sum(rows: seq<MonthRow>, field: MonthRow -> int): (r: int)
    ensures (forall i :: 0 <= i < |rows| ==> field(rows[i]) >= 0) ==> r >= 0
    ensures (forall i :: 0 <= i < |rows| ==> field(rows[i]) >= 0) ==>
      forall i :: 0 <= i < |rows| ==> r >= field(rows[i])
  {
    if rows == [] then 0 else Sum(rows[..|rows| - 1], field) + field(rows[|rows| - 1])
  }

  /** The `reduce` loop: walks the rows front to back, adding one field. */
  method Reduce(rows: seq<MonthRow>, field: MonthRow -> int) returns (total: int)
    ensures total == Sum(rows, field)
  {
    total := 0;
    var i := 0;
    while i < |rows|
      invariant 0 <= i <= |rows|
      invariant total == Sum(rows[..i], field)
    {
      assert rows[..i + 1][..i] == rows[..i];
      total := total + field(rows[i]);
      i := i + 1;
    }
    assert rows[..|rows|] == rows;
  }

  /** When every row's profit is its revenue less its expenses, total revenue
      less total expenses is the total of the profit column. */
  lemma {:induction false} ProfitIsSumOfProfits(rows: seq<MonthRow>)
    requires forall i :: 0 <= i < |rows| ==> rows[i].profit == rows[i].revenue - rows[i].expenses
    ensures Sum(rows, Revenue) - Sum(rows, Expenses) == Sum(rows, Profit)
  {
    if rows != [] {
      ProfitIsSumOfProfits(rows[..|rows| - 1]);
    }
  }

  /** The table's rows are consistent: profit is revenue less expenses. */
  lemma MonthlyRevenueConsistent()
    ensures forall i :: 0 <= i < |MonthlyRevenue| ==>
      MonthlyRevenue[i].profit == MonthlyRevenue[i].revenue - MonthlyRevenue[i].expenses
  {
  }

  /** The three cards: `totalRevenue` and `totalExpenses` by `reduce`, and
      `totalProfit` as their difference, which is also the profit column's total. */
  method Totals() returns (revenue: int, expenses: int, profit: int)
    ensures revenue == Sum(MonthlyRevenue, Revenue) && revenue == 318000
    ensures expenses == Sum(MonthlyRevenue, Expenses) && expenses == 99500
    ensures profit == Sum(MonthlyRevenue, Profit) && profit == 218500
  {
    revenue := Reduce(MonthlyRevenue, Revenue);
    expenses := Reduce(MonthlyRevenue, Expenses);
    profit := revenue - expenses;
    MonthlyRevenueConsistent();
    ProfitIsSumOfProfits(MonthlyRevenue);
    ShownSums();
  }

  /** The sums of the table's columns. */
  lemma ShownSums()
    ensures Sum(MonthlyRevenue, Revenue) == 318000
    ensures Sum(MonthlyRevenue, Expenses) == 99500
    ensures Sum(MonthlyRevenue, Profit) == 218500
  {
    ShownSum(Revenue);
    ShownSum(Expenses);
    ShownSum(Profit);
  }

  /** Any column's total over the table, spelled out month by month. */
  lemma ShownSum(field: MonthRow -> int)
    ensures Sum(MonthlyRevenue, field) ==
      field(MonthlyRevenue[0]) + field(MonthlyRevenue[1]) + field(MonthlyRevenue[2])
      + field(MonthlyRevenue[3]) + field(MonthlyRevenue[4]) + field(MonthlyRevenue[5])
  {
    var t := MonthlyRevenue;
    assert t[..1][..0] == [];
    assert Sum(t[..1], field) == field(t[0]);
    assert t[..2][..1] == t[..1];
    assert Sum(t[..2], field) == Sum(t[..1], field) + field(t[1]);
    assert t[..3][..2] == t[..2];
    assert Sum(t[..3], field) == Sum(t[..2], field) + field(t[2]);
    assert t[..4][..3] == t[..3];
    assert Sum(t[..4], field) == Sum(t[..3], field) + field(t[3]);
    assert t[..5][..4] == t[..4];
    assert Sum(t[..5], field) == Sum(t[..4], field) + field(t[4]);
    assert t[..5] == t[..|t| - 1];
  }

  // -------------------------------------------------------------- statuses

  const Gray := "bg-gray-100 text-gray-800"

  /** `getStatusText`: the Portuguese label of the three known statuses; any
      other status is shown as it is. */
  function StatusText(status: string): (r: string)
    ensures status == "paid" ==> r == "Pago"
    ensures status == "pending" ==> r == "Pendente"
    ensures status == "overdue" ==> r == "Vencido"
    ensures status !in {"paid", "pending", "overdue"} ==> r == status
  {
    match status
    case "paid" => "Pago"
    case "pending" => "Pendente"
    case "overdue" => "Vencido"
    case _ => status
  }

  /** `getStatusColor`: green, yellow and red for the three known statuses,
      the gray default for anything else. */
  function StatusColor(status: string): (r: string)
    ensures status == "paid" ==> r == "bg-green-100 text-green-800"
    ensures status == "pending" ==> r == "bg-yellow-100 text-yellow-800"
    ensures status == "overdue" ==> r == "bg-red-100 text-red-800"
    ensures status !in {"paid", "pending", "overdue"} ==> r == Gray
  {
    match status
    case "paid" => "bg-green-100 text-green-800"
    case "pending" => "bg-yellow-100 text-yellow-800"
    case "overdue" => "bg-red-100 text-red-800"
    case _ => Gray
  }

  /** The two switches cover the same statuses: a badge is gray exactly when
      its label is the raw status. */
  lemma GrayExactlyWhenUntranslated(status: string)
    ensures StatusColor(status) == Gray <==> StatusText(status) == status
  {
  }

  /** The three known statuses get three different labels, so a label names
      its status; but a status spelled like a label shows that same label. */
  lemma LabelsDistinguishKnownStatuses()
    ensures StatusText("paid") != StatusText("pending")
    ensures StatusText("paid") != StatusText("overdue")
    ensures StatusText("pending") != StatusText("overdue")
    ensures StatusText("Pago") == StatusText("paid") && StatusColor("Pago") != StatusColor("paid")
  {
    assert "Pago"[0] != "paid"[0];
  }
}

=== FILE: calendar.dfy ===
/** The Calendar screen (src/pages/Calendar.tsx): a fixed month grid for
    March 2024, a selected day, and an appointment dialog whose create and
    delete actions only log and notify. */
module Calendar {
  import opened Js
  import opened Decimal

  const DaysInMonth := 31
  /** March 1, 2024 is a Friday: five blank cells precede it. */
  const FirstDayOfWeek := 5

  datatype Appointment = Appointment(
    id: int, time: string, title: string, client: string, employee: string, color: string)

  datatype Form = Form(title: string, client: string, employee: string, time: string, date: string)

  const BlankForm := Form("", "", "", "", "")

  datatype Screen = Screen(
    selectedDate: nat,
    dialogOpen: bool,
    editing: Option<Appointment>,
    form: Form)

  /** The grid's shape: blanks for the weekdays before the 1st, then the
      days of the month in order. */
  predicate Grid(days: seq<Option<nat>>)
  {
    && |days| == FirstDayOfWeek + DaysInMonth
    && (forall i :: 0 <= i < FirstDayOfWeek ==> days[i] == None)
    && (forall i :: FirstDayOfWeek <= i < |days| ==> days[i] == Some(i - FirstDayOfWeek + 1))
  }

  /** `generateCalendarDays`: five nulls, then the numbers 1 to 31 (cell
      `i` holds day `i - 4`). */
  method GenerateCalendarDays() returns (days: seq<Option<nat>>)
    ensures |days| == 36
    ensures forall i :: 0 <= i < 5 ==> days[i] == None
    ensures forall i :: 5 <= i < 36 ==> days[i] == Some(i - 4)
    ensures Grid(days)
  {
    days := [];
    var i := 0;
    while i < FirstDayOfWeek
      invariant 0 <= i <= FirstDayOfWeek
      invariant |days| == i
      invariant forall j :: 0 <= j < i ==> days[j] == None
    {
      days := days + [None];
      i := i + 1;
    }
    var day := 1;
    while day <= DaysInMonth
      invariant 1 <= day <= DaysInMonth + 1
      invariant |days| == FirstDayOfWeek + day - 1
      invariant forall j :: 0 <= j < FirstDayOfWeek ==> days[j] == None
      invariant forall i :: FirstDayOfWeek <= i < |days| ==> days[i] == Some(i - FirstDayOfWeek + 1)
    {
      days := days + [Some(day)];
      day := day + 1;
    }
  }

  /** On the grid the days strictly increase from cell to cell, and each of
      1..31 sits in exactly one cell, the one after the blanks and the
      days before it. */
  lemma GridDaysAscendingOnce(days: seq<Option<nat>>)
    requires Grid(days)
    ensures forall i, j :: 0 <= i < j < |days| && days[i].Some? && days[j].Some? ==>
      days[i].value < days[j].value
    ensures forall i, d :: 0 <= i < |days| && days[i] == Some(d) ==>
      1 <= d <= DaysInMonth && i == FirstDayOfWeek + d - 1
  {
  }

  /** A click on a cell (`day && setSelectedDate(day)`): a blank cell leaves
      the selection as it is. */
  function ClickCell(s: Screen, cell: Option<nat>): (r: Screen)
    ensures cell.None? ==> r == s
    ensures cell.Some? && cell.value != 0 ==> r == s.(selectedDate := cell.value)
  {
    match cell
    case Some(d) => if d != 0 then s.(selectedDate := d) else s
    case None => s
  }

  /** Clicking grid cells keeps the selected day within the month. */
  lemma ClicksStayInMonth(s: Screen, days: seq<Option<nat>>, i: int)
    requires Grid(days) && 0 <= i < |days|
    requires 1 <= s.selectedDate <= DaysInMonth
    ensures 1 <= ClickCell(s, days[i]).selectedDate <= DaysInMonth
  {
    GridDaysAscendingOnce(days);
  }

  /** `handleEditAppointment`: the dialog opens on the appointment, with the
      selected day rendered as the date; reading that date back gives the
      selected day. */
  function OpenEdit(s: Screen, a: Appointment): (r: Screen)
    ensures r.dialogOpen && r.editing == Some(a) && r.selectedDate == s.selectedDate
    ensures r.form.title == a.title && r.form.client == a.client
    ensures r.form.employee == a.employee && r.form.time == a.time
    ensures ToNumber(r.form.date) == Whole(s.selectedDate)
  {
    NumberOfToString(s.selectedDate);
    s.(dialogOpen := true, editing := Some(a),
       form := Form(a.title, a.client, a.employee, a.time, NatToString(s.selectedDate)))
  }

  /** `handleCreateAppointment`: logs and notifies, closes the dialog and
      blanks all five fields; the selection and the edited appointment stay. */
  function CreateAppointment(s: Screen): (r: Screen)
    ensures !r.dialogOpen
    ensures r.form.title == "" && r.form.client == "" && r.form.employee == ""
    ensures r.form.time == "" && r.form.date == ""
    ensures r.selectedDate == s.selectedDate && r.editing == s.editing
  {
    s.(dialogOpen := false, form := BlankForm)
  }

  /** After editing an appointment and pressing save, the screen still holds
      that appointment as the one being edited. */
  lemma SaveKeepsEditTarget(s: Screen, a: Appointment)
    ensures CreateAppointment(OpenEdit(s, a)).editing == Some(a)
  {
  }

  /** `handleDeleteAppointment`: logs and notifies; the screen does not change. */
  function DeleteAppointment(s: Screen, id: int): (r: Screen)
    ensures r == s
  {
    s
  }
}

=== FILE: clients.dfy ===
/** The Clients screen (src/pages/Clients.tsx): client rows whose text
    columns may be null, a null-aware search, and a dialog that turns a row
    into eight text fields and sends those fields back on save. Reading
    and writing the table itself is the data platform's business; the
    model stops at the request the screen builds. */
module Clients {
  import opened Js
  import opened Seqs
  import opened Strings

  /** A row of the `clientes` table; `None` is a null column. */
  datatype Client = Client(
    id: int,
    nome: Option<string>,
    userIdDify: Option<string>,
    tratamentosAnteriores: Option<string>,
    objecoesLead: Option<string>,
    insatisfacoes: Option<string>,
    areaInteresse: Option<string>,
    duvidasTratamento: Option<string>,
    agendamento: Option<string>,
    dateTime: Option<string>)

  /** The dialog's eight text fields; the same eight columns are written on save. */
  datatype Fields = Fields(
    nome: string,
    userIdDify: string,
    tratamentosAnteriores: string,
    objecoesLead: string,
    insatisfacoes: string,
    areaInteresse: string,
    duvidasTratamento: string,
    agendamento: string)

  const BlankFields := Fields("", "", "", "", "", "", "", "")

  datatype Screen = Screen(
    clients: seq<Client>,
    dialogOpen: bool,
    editing: Option<Client>,
    searchTerm: string,
    form: Fields)

  /** The write `handleSubmit` sends: an update of the edited row or an insert. */
  datatype Save = Update(id: int, values: Fields) | Insert(values: Fields)

  // ---------------------------------------------------------------- search

  /** `column?.toLowerCase().includes(term.toLowerCase())`: a null column never matches. */
  predicate ColumnMatches(column: Option<string>, term: string)
  {
    column.Some? && Contains(Lower(column.value), Lower(term))
  }

  predicate Matches(c: Client, term: string)
  {
    ColumnMatches(c.nome, term) || ColumnMatches(c.areaInteresse, term)
  }

  function MatchesTerm(term: string): Client -> bool
  {
    (c: Client) => Matches(c, term)
  }

  /** `filteredClients`. */
  function FilterClients(cs: seq<Client>, term: string): (r: seq<Client>)
    ensures |r| <= |cs|
    ensures forall i :: 0 <= i < |r| ==> (r[i].nome.Some? || r[i].areaInteresse.Some?)
    ensures forall i :: 0 <= i < |r| ==> Matches(r[i], term)
  {
    Filter(cs, MatchesTerm(term))
  }

  /** A row is shown exactly when its `nome` or its `area_interesse` is
      non-null and includes the term, ignoring case; each shown row appears
      as often as in the list. */
  lemma FilterClientsExact(cs: seq<Client>, term: string, c: Client)
    ensures multiset(FilterClients(cs, term))[c] ==
      if (c.nome.Some? && Contains(Lower(c.nome.value), Lower(term)))
         || (c.areaInteresse.Some? && Contains(Lower(c.areaInteresse.value), Lower(term)))
      then multiset(cs)[c] else 0
  {
    FilterCount(cs, MatchesTerm(term), c);
  }

  /** The search keeps the list's order. */
  lemma FilterClientsKeepsOrder(a: seq<Client>, b: seq<Client>, term: string)
    ensures FilterClients(a + b, term) == FilterClients(a, term) + FilterClients(b, term)
  {
    FilterConcat(a, b, MatchesTerm(term));
  }

  /** With an empty search a row is shown exactly when `nome` or
      `area_interesse` is non-null: rows with both null stay hidden. */
  lemma EmptySearchHidesNullRows(cs: seq<Client>)
    ensures FilterClients(cs, "") == Filter(cs, (c: Client) => c.nome.Some? || c.areaInteresse.Some?)
  {
    forall i | 0 <= i < |cs|
      ensures MatchesTerm("")(cs[i]) == (cs[i].nome.Some? || cs[i].areaInteresse.Some?)
    {
      if cs[i].nome.Some? {
        ContainsEmpty(Lower(cs[i].nome.value));
      }
      if cs[i].areaInteresse.Some? {
        ContainsEmpty(Lower(cs[i].areaInteresse.value));
      }
    }
    FilterAgree(cs, MatchesTerm(""), (c: Client) => c.nome.Some? || c.areaInteresse.Some?);
  }

  /** A list whose every row has `nome` and `area_interesse` null shows
      nothing, whatever the search. */
  lemma NullRowsNeverShown(cs: seq<Client>, term: string)
    requires forall i :: 0 <= i < |cs| ==> cs[i].nome.None? && cs[i].areaInteresse.None?
    ensures FilterClients(cs, term) == []
  {
    FilterDropsAll(cs, MatchesTerm(term));
  }

  // ------------------------------------------------------------ the dialog

  /** `handleEdit`: the dialog opens on the row; every null column becomes "". */
  function OpenEdit(s: Screen, c: Client): (r: Screen)
    ensures r.clients == s.clients && r.searchTerm == s.searchTerm
    ensures r.dialogOpen && r.editing == Some(c)
    ensures r.form.nome == OrElse(c.nome, "")
    ensures r.form.userIdDify == OrElse(c.userIdDify, "")
    ensures r.form.tratamentosAnteriores == OrElse(c.tratamentosAnteriores, "")
    ensures r.form.objecoesLead == OrElse(c.objecoesLead, "")
    ensures r.form.insatisfacoes == OrElse(c.insatisfacoes, "")
    ensures r.form.areaInteresse == OrElse(c.areaInteresse, "")
    ensures r.form.duvidasTratamento == OrElse(c.duvidasTratamento, "")
    ensures r.form.agendamento == OrElse(c.agendamento, "")
  {
    s.(dialogOpen := true, editing := Some(c), form := FieldsOf(c))
  }

  function FieldsOf(c: Client): Fields
  {
    Fields(OrElse(c.nome, ""), OrElse(c.userIdDify, ""),
           OrElse(c.tratamentosAnteriores, ""), OrElse(c.objecoesLead, ""),
           OrElse(c.insatisfacoes, ""), OrElse(c.areaInteresse, ""),
           OrElse(c.duvidasTratamento, ""), OrElse(c.agendamento, ""))
  }

  /** `handleCloseDialog`: closed, nothing being edited, all eight fields blank. */
  function CloseDialog(s: Screen): (r: Screen)
    ensures !r.dialogOpen && r.editing.None?
    ensures r.form.nome == "" && r.form.userIdDify == "" && r.form.tratamentosAnteriores == ""
    ensures r.form.objecoesLead == "" && r.form.insatisfacoes == "" && r.form.areaInteresse == ""
    ensures r.form.duvidasTratamento == "" && r.form.agendamento == ""
    ensures r.clients == s.clients && r.searchTerm == s.searchTerm
  {
    s.(dialogOpen := false, editing := None, form := BlankFields)
  }

  /** Pressing save: the `nome` input is `required`, so the browser's form
      validation stops the submit while it is empty and nothing is sent.
      Otherwise `handleSubmit` sends the eight form fields, unchanged, as an
      update of the edited row's id or as an insert. */
  function SaveRequest(s: Screen): (r: Option<Save>)
    ensures r.None? <==> s.form.nome == ""
    ensures r.Some? ==> r.value.values == s.form
    ensures r.Some? ==> (s.editing.Some? <==> r.value.Update?)
    ensures r.Some? && r.value.Update? ==> r.value.id == s.editing.value.id
  {
    if s.form.nome == "" then None
    else match s.editing
      case Some(c) => Some(Update(c.id, s.form))
      case None => Some(Insert(s.form))
  }

  /** The rows that carry an Edit button: the table lists only the rows the
      search shows. */
  function EditTargets(s: Screen): (r: seq<Client>)
    ensures forall i :: 0 <= i < |r| ==> Matches(r[i], s.searchTerm)
  {
    FilterClients(s.clients, s.searchTerm)
  }

  /** The row as it reads back after a write of `values`: every column the
      form covers holds its text, `date_time` is untouched. */
  function Written(c: Client, values: Fields): Client
  {
    c.(nome := Some(values.nome), userIdDify := Some(values.userIdDify),
       tratamentosAnteriores := Some(values.tratamentosAnteriores),
       objecoesLead := Some(values.objecoesLead), insatisfacoes := Some(values.insatisfacoes),
       areaInteresse := Some(values.areaInteresse),
       duvidasTratamento := Some(values.duvidasTratamento),
       agendamento := Some(values.agendamento))
  }

  /** Opening a row and saving without touching the form is blocked exactly
      when its `nome` is null or empty; otherwise it sends an update of that
      row, which reads back unchanged exactly when none of its eight form
      columns was null. */
  lemma SaveUnchangedRewritesNulls(s: Screen, c: Client)
    ensures SaveRequest(OpenEdit(s, c)).None? <==> c.nome.None? || c.nome.value == ""
    ensures c.nome.Some? && c.nome.value != "" ==>
      SaveRequest(OpenEdit(s, c)) == Some(Update(c.id, FieldsOf(c)))
    ensures SaveRequest(OpenEdit(s, c)).Some? ==>
      (Written(c, FieldsOf(c)) == c <==>
        && c.userIdDify.Some? && c.tratamentosAnteriores.Some?
        && c.objecoesLead.Some? && c.insatisfacoes.Some? && c.areaInteresse.Some?
        && c.duvidasTratamento.Some? && c.agendamento.Some?)
  {
  }

  /** A row whose `nome` and `area_interesse` are both null can be neither
      edited nor saved: no search lists it, so it has no Edit button, and
      even opened, its blank `nome` would stop the save. */
  lemma NullRowCannotBeEdited(s: Screen, c: Client)
    requires c.nome.None? && c.areaInteresse.None?
    ensures c !in EditTargets(s)
    ensures SaveRequest(OpenEdit(s, c)).None?
  {
  }

  /** A hidden row with an empty `nome` can still be listed, opened and
      edited through its `area_interesse`, but not saved until `nome` is
      filled in. */
  lemma EmptyNameBlocksSave(s: Screen, c: Client)
    requires c.nome == Some("")
    ensures SaveRequest(OpenEdit(s, c)).None?
    ensures forall f :: f != "" ==>
      SaveRequest(OpenEdit(s, c).(form := OpenEdit(s, c).form.(nome := f))) ==
        Some(Update(c.id, FieldsOf(c).(nome := f)))
  {
  }
}

=== FILE: decimal.dfy ===
/** Decimal rendering and reading of whole numbers: `n.toString()` and the
    part of `Number(s)` the forms use for prices, durations and dates. */
module Decimal {
  import opened Strings

  predicate IsDigit(c: char)
  {
    '0' <= c <= '9'
  }

  predicate AllDigits(s: string)
  {
    forall i :: 0 <= i < |s| ==> IsDigit(s[i])
  }

  function DigitChar(d: nat): (c: char)
    requires d < 10
    ensures IsDigit(c)
  {
    ('0' as int + d) as char
  }

  function DigitValue(c: char): nat
    requires IsDigit(c)
  {
    c as int - '0' as int
  }

  /** `n.toString()` for a whole number below 10^21, where JavaScript
      writes the plain decimal numeral: the shortest one, with no leading
      zero except for `0` itself. */
  function NatToString(n: nat): (r: string)
    ensures r != [] && AllDigits(r)
    ensures |r| == 1 || r[0] != '0'
    decreases n
  {
    if n < 10 then [DigitChar(n)]
    else NatToString(n / 10) + [DigitChar(n % 10)]
  }

  /** The value of a decimal numeral read most significant digit first. */
  function DigitsValue(s: string): nat
    requires AllDigits(s)
    decreases |s|
  {
    if s == [] then 0
    else DigitsValue(s[..|s| - 1]) * 10 + DigitValue(s[|s| - 1])
  }

  /** Reading back a rendered number gives the number. */
  lemma {:induction false} DigitsValueOfNatToString(n: nat)
    ensures DigitsValue(NatToString(n)) == n
    decreases n
  {
    if n >= 10 {
      var s := NatToString(n);
      DigitsValueOfNatToString(n / 10);
      assert s[..|s| - 1] == NatToString(n / 10);
    }
  }

  /** Distinct numbers render as distinct strings. */
  lemma NatToStringInjective(a: nat, b: nat)
    requires NatToString(a) == NatToString(b)
    ensures a == b
  {
    DigitsValueOfNatToString(a);
    DigitsValueOfNatToString(b);
  }

  /** What `Number(text)` yields: a whole number, or a value the model does
      not track (NaN, a fraction, a negative number, or a numeral written
      with a sign, exponent, point or radix prefix), kept as the raw text. */
  datatype Amount = Whole(n: nat) | Unmodelled(text: string)

  /** `Number(s)` on form text: surrounding whitespace is ignored, a blank
      string is 0, and a run of decimal digits is read as its exact value
      (JavaScript's double agrees up to 2^53). */
  function ToNumber(s: string): (r: Amount)
    ensures r.Whole? <==> AllDigits(Trim(s))
    ensures Trim(s) == "" ==> r == Whole(0)
    ensures r.Unmodelled? ==> r.text == s
    ensures r.Whole? ==> r.n == DigitsValue(Trim(s))
  {
    var t := Trim(s);
    if AllDigits(t) then Whole(DigitsValue(t)) else Unmodelled(s)
  }

  /** Leading zeros and surrounding spaces do not change the number read:
      `Number(" 0120 ")` is 120. */
  lemma PaddedNumeral()
    ensures ToNumber(" 0120 ") == Whole(120)
  {
    TrimPadded();
    ValueWithLeadingZero();
  }

  lemma TrimPadded()
    ensures Trim(" 0120 ") == "0120"
  {
    assert " 0120 " == " " + "0120" + " ";
    TrimSpaceAround("0120");
  }

  lemma ValueWithLeadingZero()
    ensures AllDigits("0120") && DigitsValue("0120") == 120
  {
    assert "0120"[..3] == "012" && "012"[..2] == "01" && "01"[..1] == "0" && "0"[..0] == "";
  }

  /** `a.toString()` for an amount. An unmodelled amount shows its raw
      text, where JavaScript would render the number read from it
      (`"1.50"` as `1.5`, `"abc"` as `NaN`). */
  function AmountToString(a: Amount): string
  {
    match a
    case Whole(n) => NatToString(n)
    case Unmodelled(text) => text
  }

  /** `Number(n.toString())` is `n` for every whole number the model reads
      exactly. */
  lemma NumberOfToString(n: nat)
    ensures ToNumber(NatToString(n)) == Whole(n)
  {
    var s := NatToString(n);
    assert Trimmed(s);
    TrimOfTrimmed(s);
    DigitsValueOfNatToString(n);
  }
}

=== FILE: employees.dfy ===
/** The Employees screen (src/pages/Employees.tsx): an in-memory list of
    staff records with a search box, a create/edit dialog whose
    specialties field is comma-separated text, deletion by id, and the
    avatar initials and role badge colour. */
module Employees {
  import opened Js
  import opened Seqs
  import opened Strings
  import ObjectLookup

  datatype Employee = Employee(
    id: int,
    name: string,
    role: string,
    email: string,
    phone: string,
    specialties: seq<string>,
    status: string,
    avatar: string)

  /** The dialog's text fields; `specialties` is the comma-separated text. */
  datatype Form = Form(name: string, role: string, email: string, phone: string, specialties: string)

  const BlankForm := Form("", "", "", "", "")

  /** The screen's state: the list, whether the dialog is open, the record
      being edited (if any), the search text and the dialog's fields. */
  datatype Screen = Screen(
    employees: seq<Employee>,
    dialogOpen: bool,
    editing: Option<Employee>,
    searchTerm: string,
    form: Form)

  // ---------------------------------------------------------------- search

  /** The search predicate: the lower-cased name or role includes the lower-cased term. */
  predicate Matches(e: Employee, term: string)
  {
    Contains(Lower(e.name), Lower(term)) || Contains(Lower(e.role), Lower(term))
  }

  function MatchesTerm(term: string): Employee -> bool
  {
    (e: Employee) => Matches(e, term)
  }

  /** `filteredEmployees`. */
  function FilterEmployees(es: seq<Employee>, term: string): (r: seq<Employee>)
    ensures |r| <= |es|
    ensures forall i :: 0 <= i < |r| ==> Matches(r[i], term)
  {
    Filter(es, MatchesTerm(term))
  }

  /** The search shows exactly the matching records, each as often as in the list. */
  lemma FilterEmployeesExact(es: seq<Employee>, term: string, e: Employee)
    ensures multiset(FilterEmployees(es, term))[e] == if Matches(e, term) then multiset(es)[e] else 0
  {
    FilterCount(es, MatchesTerm(term), e);
  }

  /** The search keeps the list's order: it distributes over concatenation. */
  lemma FilterEmployeesKeepsOrder(a: seq<Employee>, b: seq<Employee>, term: string)
    ensures FilterEmployees(a + b, term) == FilterEmployees(a, term) + FilterEmployees(b, term)
  {
    FilterConcat(a, b, MatchesTerm(term));
  }

  /** An empty search shows the whole list. */
  lemma EmptySearchShowsAll(es: seq<Employee>)
    ensures FilterEmployees(es, "") == es
  {
    forall i | 0 <= i < |es| ensures MatchesTerm("")(es[i]) {
      ContainsEmpty(Lower(es[i].name));
    }
    FilterKeepsAll(es, MatchesTerm(""));
  }

  // ----------------------------------------------------------- specialties

  predicate NonBlank(s: string)
  {
    s != ""
  }

  /** `text.split(',').map(s => s.trim()).filter(s => s)`. */
  function ParseSpecialties(text: string): (r: seq<string>)
    ensures forall i :: 0 <= i < |r| ==> r[i] != ""
  {
    Filter(MapSeq(Split(text, ','), Trim), NonBlank)
  }

  /** A specialty the dialog can show and read back unchanged. */
  predicate Clean(s: string)
  {
    s != "" && Trimmed(s) && ',' !in s
  }

  /** Every parsed specialty is non-empty, trimmed and free of commas. */
  lemma ParsedSpecialtiesAreClean(text: string)
    ensures forall i :: 0 <= i < |ParseSpecialties(text)| ==> Clean(ParseSpecialties(text)[i])
  {
    var r := ParseSpecialties(text);
    forall i | 0 <= i < |r| ensures Clean(r[i]) {
      ParsedSpecialtyIsClean(text, r[i]);
    }
  }

  lemma ParsedSpecialtyIsClean(text: string, x: string)
    requires x in ParseSpecialties(text)
    ensures Clean(x)
  {
    var pieces := Split(text, ',');
    FilterMember(MapSeq(pieces, Trim), NonBlank, x);
    var j := MapSeqIndex(pieces, Trim, x);
    SplitPiecesFree(text, ',');
    var piece := pieces[j];
    assert ',' !in piece;
    TrimKeepsAbsent(piece, ',');
  }

  /** Parsing distributes over a comma: the specialties before it come first,
      in input order. */
  lemma ParseSpecialtiesConcat(a: string, b: string)
    ensures ParseSpecialties(a + "," + b) == ParseSpecialties(a) + ParseSpecialties(b)
  {
    SplitConcat(a, b, ',');
    MapConcat(Split(a, ','), Split(b, ','), Trim);
    FilterConcat(MapSeq(Split(a, ','), Trim), MapSeq(Split(b, ','), Trim), NonBlank);
  }

  /** A piece without a comma parses to its trim, or to nothing when it is
      blank. With `ParseSpecialtiesConcat` this fixes the parse of any text:
      each comma-separated piece, trimmed, blank ones dropped, in order. */
  lemma ParseOnePiece(p: string)
    requires ',' !in p
    ensures ParseSpecialties(p) == if Trim(p) == "" then [] else [Trim(p)]
  {
    SplitWithoutSep(p, ',');
    var t := Trim(p);
    assert MapSeq([p], Trim) == [t];
    FilterOne(t, NonBlank);
  }

  /** The edit dialog's `join(', ')` followed by the submit's parse gives the
      specialties back when each is clean. */
  lemma SpecialtiesRoundTrip(xs: seq<string>)
    requires forall i :: 0 <= i < |xs| ==> Clean(xs[i])
    ensures ParseSpecialties(Join(xs, ", ")) == xs
  {
    if xs == [] {
      NothingToParse();
    } else {
      SplitJoined(xs);
      TrimPieces(xs);
      FilterKeepsAll(xs, NonBlank);
    }
  }

  /** An empty specialties field gives no specialties. */
  lemma NothingToParse()
    ensures ParseSpecialties("") == []
  {
    assert Split("", ',') == [""];
    assert MapSeq([""], Trim) == [""];
    assert Filter([""], NonBlank) == [];
  }

  /** Splitting a `", "`-joined list at its commas leaves a space in front of
      every piece but the first. */
  lemma SplitJoined(xs: seq<string>)
    requires |xs| >= 1
    requires forall i :: 0 <= i < |xs| ==> ',' !in xs[i]
    ensures Split(Join(xs, ", "), ',') == [xs[0]] + SpaceEach(xs[1..])
  {
    var pieces := [xs[0]] + SpaceEach(xs[1..]);
    JoinCommaSpace("", xs);
    assert "" + xs[0] == xs[0];
    assert "" + Join(xs, ", ") == Join(xs, ", ");
    forall i | 0 <= i < |pieces| ensures ',' !in pieces[i] {
      if i > 0 {
        assert pieces[i] == " " + xs[i];
      }
    }
    SplitJoin(pieces, ',');
  }

  /** Trimming the pieces of a `", "`-joined list gives the clean list back. */
  lemma TrimPieces(xs: seq<string>)
    requires |xs| >= 1
    requires forall i :: 0 <= i < |xs| ==> Clean(xs[i])
    ensures MapSeq([xs[0]] + SpaceEach(xs[1..]), Trim) == xs
  {
    var pieces := [xs[0]] + SpaceEach(xs[1..]);
    forall i | 0 <= i < |xs| ensures Trim(pieces[i]) == xs[i] {
      TrimPieceAt(xs, i);
    }
    TrimsTo(pieces, xs);
  }

  /** Piece `i` of a `", "`-joined list trims back to specialty `i`. */
  lemma TrimPieceAt(xs: seq<string>, i: int)
    requires 0 <= i < |xs| && Clean(xs[i])
    ensures Trim(([xs[0]] + SpaceEach(xs[1..]))[i]) == xs[i]
  {
    if i == 0 {
      TrimPiece(xs[0], true);
    } else {
      assert ([xs[0]] + SpaceEach(xs[1..]))[i] == SpaceEach(xs[1..])[i - 1];
      TrimPiece(xs[i], false);
    }
  }

  /** Pieces that trim one by one to a list map to that list. */
  lemma TrimsTo(pieces: seq<string>, xs: seq<string>)
    requires |pieces| == |xs|
    requires forall i :: 0 <= i < |xs| ==> Trim(pieces[i]) == xs[i]
    ensures MapSeq(pieces, Trim) == xs
  {
  }

  /** A clean specialty, with or without the space the join put before it,
      trims back to itself. */
  lemma TrimPiece(x: string, first: bool)
    requires Clean(x)
    ensures Trim(if first then x else " " + x) == x
  {
    if first {
      TrimOfTrimmed(x);
    } else {
      TrimSpaceThen(x);
    }
  }

  // ------------------------------------------------------ edit, add, delete

  /** `{ ...e, ...formData, specialties: specialtiesArray }`. */
  function ApplyForm(e: Employee, form: Form): Employee
  {
    e.(name := form.name, role := form.role, email := form.email, phone := form.phone,
       specialties := ParseSpecialties(form.specialties))
  }

  function Replacer(id: int, form: Form): Employee -> Employee
  {
    (e: Employee) => if e.id == id then ApplyForm(e, form) else e
  }

  /** The edit branch of `handleSubmit`: every record with the edited id takes
      the form's fields and keeps its id, status and avatar; every other
      record and the length are unchanged. */
  function EditEmployees(es: seq<Employee>, id: int, form: Form): (r: seq<Employee>)
    ensures |r| == |es|
    ensures forall i :: 0 <= i < |es| && es[i].id != id ==> r[i] == es[i]
    ensures forall i :: 0 <= i < |es| && es[i].id == id ==>
      && r[i].id == id && r[i].status == es[i].status && r[i].avatar == es[i].avatar
      && r[i].name == form.name && r[i].role == form.role
      && r[i].email == form.email && r[i].phone == form.phone
      && r[i].specialties == ParseSpecialties(form.specialties)
  {
    MapSeq(es, Replacer(id, form))
  }

  /** Submitting the same form twice is the same as submitting it once. */
  lemma EditIdempotent(es: seq<Employee>, id: int, form: Form)
    ensures EditEmployees(EditEmployees(es, id, form), id, form) == EditEmployees(es, id, form)
  {
  }

  /** The add branch of `handleSubmit`: one record appended after the
      unchanged list, with id `length + 1`, status "active", no avatar, and
      the form's fields. */
  function AddEmployee(es: seq<Employee>, form: Form): (r: seq<Employee>)
    ensures |r| == |es| + 1 && r[..|es|] == es
    ensures r[|es|].id == |es| + 1 && r[|es|].status == "active" && r[|es|].avatar == ""
    ensures r[|es|].name == form.name && r[|es|].role == form.role
    ensures r[|es|].email == form.email && r[|es|].phone == form.phone
    ensures r[|es|].specialties == ParseSpecialties(form.specialties)
  {
    es + [Employee(|es| + 1, form.name, form.role, form.email, form.phone,
                   ParseSpecialties(form.specialties), "active", "")]
  }

  function KeepOther(id: int): Employee -> bool
  {
    (e: Employee) => e.id != id
  }

  /** `handleDelete`. */
  function DeleteEmployee(es: seq<Employee>, id: int): (r: seq<Employee>)
    ensures |r| <= |es|
    ensures forall i :: 0 <= i < |r| ==> r[i].id != id
  {
    Filter(es, KeepOther(id))
  }

  /** After deletion every record with the id is gone and every other record
      stays, as often as before. */
  lemma DeleteEmployeeExact(es: seq<Employee>, id: int, e: Employee)
    ensures multiset(DeleteEmployee(es, id))[e] == if e.id == id then 0 else multiset(es)[e]
  {
    FilterCount(es, KeepOther(id), e);
  }

  /** Deletion keeps the order of the records that stay. */
  lemma DeleteKeepsOrder(a: seq<Employee>, b: seq<Employee>, id: int)
    ensures DeleteEmployee(a + b, id) == DeleteEmployee(a, id) + DeleteEmployee(b, id)
  {
    FilterConcat(a, b, KeepOther(id));
  }

  /** Deleting an id no record has changes nothing. */
  lemma DeleteAbsentId(es: seq<Employee>, id: int)
    requires forall i :: 0 <= i < |es| ==> es[i].id != id
    ensures DeleteEmployee(es, id) == es
  {
    FilterKeepsAll(es, KeepOther(id));
  }

  /** Ids numbered from 1 in list order, as in the initial data. */
  predicate NumberedFromOne(es: seq<Employee>)
  {
    forall i :: 0 <= i < |es| ==> es[i].id == i + 1
  }

  /** In a list numbered 1..n, deleting id k removes exactly the k-th record. */
  lemma DeleteNumbered(es: seq<Employee>, k: int)
    requires NumberedFromOne(es)
    requires 1 <= k <= |es|
    ensures DeleteEmployee(es, k) == es[..k - 1] + es[k..]
  {
    var front, gone, back := es[..k - 1], es[k - 1..k], es[k..];
    assert es == front + gone + back;
    DeleteKeepsOrder(front + gone, back, k);
    DeleteKeepsOrder(front, gone, k);
    forall i | 0 <= i < |front| ensures front[i].id != k {
      assert front[i] == es[i];
    }
    DeleteAbsentId(front, k);
    forall i | 0 <= i < |back| ensures back[i].id != k {
      assert back[i] == es[k + i];
    }
    DeleteAbsentId(back, k);
    FilterDropsAll(gone, KeepOther(k));
  }

  /** Deleting an id held only by the last two records removes exactly those two. */
  lemma DeleteLastTwo(r: seq<Employee>, id: int)
    requires |r| >= 2
    requires forall i :: 0 <= i < |r| - 2 ==> r[i].id != id
    requires r[|r| - 2].id == id && r[|r| - 1].id == id
    ensures DeleteEmployee(r, id) == r[..|r| - 2]
  {
    var keep, twins := r[..|r| - 2], r[|r| - 2..];
    assert r == keep + twins;
    DeleteKeepsOrder(keep, twins, id);
    DeleteAbsentId(keep, id);
    FilterDropsAll(twins, KeepOther(id));
  }

  /** The `length + 1` id is not fresh: after deleting any record but the
      last from a list numbered 1..n, the next record added gets id n, which
      the last record still has; deleting that id then removes both. */
  lemma AddAfterDeleteReusesId(es: seq<Employee>, k: int, form: Form)
    requires NumberedFromOne(es)
    requires 1 <= k < |es|
    ensures var r := AddEmployee(DeleteEmployee(es, k), form);
      && |r| == |es|
      && r[|es| - 2].id == |es| && r[|es| - 1].id == |es|
      && |DeleteEmployee(r, |es|)| == |es| - 2
  {
    var n := |es|;
    DeleteNumbered(es, k);
    var d := es[..k - 1] + es[k..];
    var r := AddEmployee(d, form);
    assert |d| == n - 1;
    assert r[n - 2] == d[n - 2] == es[n - 1];
    forall i | 0 <= i < n - 2 ensures r[i].id != n {
      assert r[i] == d[i];
      if i < k - 1 {
        assert d[i] == es[i];
      } else {
        assert d[i] == es[i + 1];
      }
    }
    DeleteLastTwo(r, n);
  }

  // ------------------------------------------------------------ the dialog

  /** `handleEdit`: the dialog opens on the record, its specialties joined with ", ". */
  function OpenEdit(s: Screen, e: Employee): (r: Screen)
    ensures r.employees == s.employees && r.searchTerm == s.searchTerm
    ensures r.dialogOpen && r.editing == Some(e)
    ensures r.form == Form(e.name, e.role, e.email, e.phone, Join(e.specialties, ", "))
  {
    s.(dialogOpen := true, editing := Some(e),
       form := Form(e.name, e.role, e.email, e.phone, Join(e.specialties, ", ")))
  }

  /** `handleSubmit`: edit the record being edited, or add a new one; then
      close the dialog, forget the edited record and blank the form. */
  function Submit(s: Screen): (r: Screen)
    ensures !r.dialogOpen && r.editing == None && r.form == BlankForm
    ensures r.searchTerm == s.searchTerm
    ensures s.editing.Some? ==> r.employees == EditEmployees(s.employees, s.editing.value.id, s.form)
    ensures s.editing.None? ==> r.employees == AddEmployee(s.employees, s.form)
  {
    var es := match s.editing
      case Some(e) => EditEmployees(s.employees, e.id, s.form)
      case None => AddEmployee(s.employees, s.form);
    Screen(es, false, None, s.searchTerm, BlankForm)
  }

  /** Opening a record and saving without touching the form leaves the list
      as it was, provided its specialties are clean and no other record
      shares its id. */
  lemma SaveUnchangedKeepsList(s: Screen, e: Employee)
    requires forall i :: 0 <= i < |s.employees| && s.employees[i].id == e.id ==> s.employees[i] == e
    requires forall i :: 0 <= i < |e.specialties| ==> Clean(e.specialties[i])
    ensures Submit(OpenEdit(s, e)).employees == s.employees
  {
    var form := OpenEdit(s, e).form;
    OwnFormChangesNothing(e);
    EditWithOwnForm(s.employees, e, form);
  }

  /** The form `handleEdit` fills in, applied back to the same record,
      gives that record when its specialties are clean. */
  lemma OwnFormChangesNothing(e: Employee)
    requires forall i :: 0 <= i < |e.specialties| ==> Clean(e.specialties[i])
    ensures ApplyForm(e, Form(e.name, e.role, e.email, e.phone, Join(e.specialties, ", "))) == e
  {
    SpecialtiesRoundTrip(e.specialties);
  }

  /** Editing with a form that changes nothing on the one record holding the
      id leaves the list as it was. */
  lemma EditWithOwnForm(es: seq<Employee>, e: Employee, form: Form)
    requires ApplyForm(e, form) == e
    requires forall i :: 0 <= i < |es| && es[i].id == e.id ==> es[i] == e
    ensures EditEmployees(es, e.id, form) == es
  {
    var r := EditEmployees(es, e.id, form);
    forall i | 0 <= i < |es| ensures r[i] == es[i] {
      assert r[i] == Replacer(e.id, form)(es[i]);
    }
  }

  // -------------------------------------------------------------- display

  /** `words.map(n => n[0]).join('')`: the first character of every word; an
      empty word's `n[0]` is `undefined`, which `join` renders as "". */
  function FirstChars(words: seq<string>): string
    decreases |words|
  {
    if words == [] then ""
    else (if words[0] == "" then "" else [words[0][0]]) + FirstChars(words[1..])
  }

  /** `getInitials`: the first characters of the space-separated words, at
      most two, upper-cased. */
  function Initials(name: string): (r: string)
    ensures |r| <= 2
  {
    var all := FirstChars(Split(name, ' '));
    Upper(if |all| <= 2 then all else all[..2])
  }

  /** A name that starts with a non-space character starts its initials. */
  lemma InitialsStartWithName(name: string)
    requires name != "" && name[0] != ' '
    ensures Initials(name) != "" && Initials(name)[0] == UpperChar(name[0])
  {
    var words := Split(name, ' ');
    assert words[0][0] == name[0];
  }

  /** A single word gives one initial. */
  lemma {:induction false} InitialsOfOneWord(name: string)
    requires name != "" && ' ' !in name
    ensures Initials(name) == [UpperChar(name[0])]
  {
    SplitWithoutSep(name, ' ');
    assert FirstChars([name]) == [name[0]];
  }

  /** A first word, a space, and a second word starting with a non-space
      character give the initials of those two words, whatever follows. */
  lemma InitialsOfTwoWords(a: string, b: string)
    requires a != "" && ' ' !in a
    requires b != "" && b[0] != ' '
    ensures Initials(a + " " + b) == [UpperChar(a[0]), UpperChar(b[0])]
  {
    SplitConcat(a, b, ' ');
    SplitWithoutSep(a, ' ');
    var words := Split(a + " " + b, ' ');
    var rest := Split(b, ' ');
    assert rest[0][0] == b[0];
    assert words == [a] + rest;
    assert FirstChars(words) == [a[0]] + FirstChars(rest);
    assert FirstChars(rest) == [b[0]] + FirstChars(rest[1..]);
  }

  const Gray := "bg-gray-100 text-gray-800"

  /** The own properties of `getRoleColor`'s `colors` literal. */
  function RoleColorEntry(role: string): Option<string>
  {
    if role == "Dermatologista" then Some("bg-purple-100 text-purple-800")
    else if role == "Esteticista" then Some("bg-blue-100 text-blue-800")
    else if role == "Recepcionista" then Some("bg-green-100 text-green-800")
    else None
  }

  /** `getRoleColor` as written: `colors[role] || gray` on an object literal,
      so a role named after an `Object.prototype` member yields that member. */
  function RoleColorAsWritten(role: string): (r: ObjectLookup.Value)
    ensures role == "Dermatologista" ==> r == ObjectLookup.Text("bg-purple-100 text-purple-800")
    ensures role == "Esteticista" ==> r == ObjectLookup.Text("bg-blue-100 text-blue-800")
    ensures role == "Recepcionista" ==> r == ObjectLookup.Text("bg-green-100 text-green-800")
    ensures role !in {"Dermatologista", "Esteticista", "Recepcionista"} ==>
      (r == ObjectLookup.Builtin(role) <==> role in ObjectLookup.PrototypeKeys)
    ensures role !in {"Dermatologista", "Esteticista", "Recepcionista"} && role !in ObjectLookup.PrototypeKeys ==>
      r == ObjectLookup.Text(Gray)
  {
    ObjectLookup.LookupOr(RoleColorEntry(role), role, Gray)
  }

  /** A role called "constructor" gets the `Object` constructor function as
      its badge class instead of the gray default. */
  lemma RoleColorConstructorIsNotGray()
    ensures RoleColorAsWritten("constructor") == ObjectLookup.Builtin("constructor")
    ensures RoleColorAsWritten("constructor") != ObjectLookup.Text(Gray)
  {
    assert "constructor"[0] != "Esteticista"[0];
  }

  /** `getRoleColor` as intended: the three known roles have their colours,
      any other text gets the gray default. */
  function RoleColor(role: string): (r: string)
    ensures role == "Dermatologista" ==> r == "bg-purple-100 text-purple-800"
    ensures role == "Esteticista" ==> r == "bg-blue-100 text-blue-800"
    ensures role == "Recepcionista" ==> r == "bg-green-100 text-green-800"
    ensures role !in {"Dermatologista", "Esteticista", "Recepcionista"} ==> r == Gray
  {
    ObjectLookup.OwnLookupOr(RoleColorEntry(role), Gray)
  }

  /** No known role is an `Object.prototype` key. */
  lemma KnownRolesAreOwn(role: string)
    requires RoleColorEntry(role).Some?
    ensures role !in ObjectLookup.PrototypeKeys
  {
    assert "Dermatologista"[0] != "hasOwnProperty"[0];
    assert "Dermatologista"[0] != "toLocaleString"[0];
    assert "Esteticista"[0] != "constructor"[0];
    assert "Recepcionista"[0] != "isPrototypeOf"[0];
  }

  /** The written lookup and the intended one agree exactly on the roles that
      are not `Object.prototype` keys. */
  lemma RoleColorAgreesOffPrototype(role: string)
    ensures RoleColorAsWritten(role) == ObjectLookup.Text(RoleColor(role))
        <==> role !in ObjectLookup.PrototypeKeys
  {
    if RoleColorEntry(role).Some? {
      KnownRolesAreOwn(role);
    }
  }
}

=== FILE: google_calendar.dfy ===
/** The `google-calendar` edge function (supabase/functions/google-calendar/index.ts):
    it dispatches on the request's `action` to a connection check, an event
    sync that maps the provider's items to local events, or the creation of
    an event from a draft; every thrown error becomes a status-500 reply.
    The session's provider token and each `fetch` outcome are inputs. */
module GoogleCalendar {
  import opened Js
  import opened Seqs
  import opened Strings
  import opened Decimal

  // ------------------------------------------------------------ transport

  /** What a `fetch` to the calendar API came to: it threw, or it answered
      with `ok`, `status` and the decoded body. */
  datatype Fetched<+T> = Thrown(message: string) | Replied(ok: bool, status: nat, body: T)

  const NoToken := "No Google access token found"
  const ApiErrorPrefix := "Google API error: "

  /** The message thrown for a reply that is not `ok`. */
  function ApiError(status: nat): (r: string)
    ensures IsPrefix(ApiErrorPrefix, r)
  {
    ApiErrorPrefix + NatToString(status)
  }

  /** Different statuses give different messages, and the message is never
      the missing-token one. */
  lemma ApiErrorNamesStatus(a: nat, b: nat)
    ensures ApiError(a) == ApiError(b) <==> a == b
    ensures ApiError(a) != NoToken
  {
    if ApiError(a) == ApiError(b) {
      assert NatToString(a) == ApiError(a)[|ApiErrorPrefix|..];
      assert NatToString(b) == ApiError(b)[|ApiErrorPrefix|..];
      NatToStringInjective(a, b);
    }
    assert ApiError(a)[0] != NoToken[0];
  }

  // ------------------------------------------------------- event mapping

  /** A `start` or `end` object of a provider event. */
  datatype EventTime = EventTime(dateTime: Option<string>, date: Option<string>)

  /** An item of the provider's `items` list, with the fields the mapping reads. */
  datatype GoogleItem = GoogleItem(
    id: Option<string>,
    summary: Option<string>,
    start: Option<EventTime>,
    end: Option<EventTime>,
    description: Option<string>,
    location: Option<string>)

  /** A local event as `syncGoogleCalendarEvents` returns it. */
  datatype SyncedEvent = SyncedEvent(
    id: string,
    title: string,
    start: Option<string>,
    end: Option<string>,
    description: string,
    location: string,
    source: string,
    googleEventId: Option<string>)

  const Untitled := "Sem t\U{00ED}tulo"
  const LocalPrefix := "google-"

  /** `t?.dateTime || t?.date`. */
  function PickTime(t: Option<EventTime>): (r: Option<string>)
    ensures t.None? ==> r.None?
    ensures t.Some? && Truthy(t.value.dateTime) ==> r == t.value.dateTime
    ensures t.Some? && !Truthy(t.value.dateTime) ==> r == t.value.date
  {
    match t
    case None => None
    case Some(et) => OrOption(et.dateTime, et.date)
  }

  /** The local id of a provider event: `google-${id}`. */
  function LocalId(id: Option<string>): string
  {
    LocalPrefix + Interpolate(id)
  }

  /** The provider id recovered from a local id, if it has the prefix. */
  function ProviderId(localId: string): Option<string>
  {
    if IsPrefix(LocalPrefix, localId) then Some(localId[|LocalPrefix|..]) else None
  }

  /** Stripping the prefix undoes `LocalId`. */
  lemma LocalIdRoundTrip(id: string)
    ensures ProviderId(LocalId(Some(id))) == Some(id)
  {
    assert LocalId(Some(id))[..|LocalPrefix|] == LocalPrefix;
  }

  /** Two provider events with ids get the same local id exactly when their
      ids are equal. */
  lemma LocalIdInjective(a: string, b: string)
    ensures LocalId(Some(a)) == LocalId(Some(b)) <==> a == b
  {
    if LocalId(Some(a)) == LocalId(Some(b)) {
      LocalIdRoundTrip(a);
      LocalIdRoundTrip(b);
    }
  }

  /** A provider event without an id and one whose id is the text
      "undefined" get the same local id. */
  lemma MissingIdCollides()
    ensures LocalId(None) == LocalId(Some("undefined"))
  {
  }

  /** The mapping callback of `syncGoogleCalendarEvents`. */
  function MapEvent(item: GoogleItem): (r: SyncedEvent)
    ensures r.id == LocalPrefix + Interpolate(item.id) && r.googleEventId == item.id
    ensures Truthy(item.summary) ==> r.title == item.summary.value
    ensures !Truthy(item.summary) ==> r.title == Untitled
    ensures r.start == PickTime(item.start) && r.end == PickTime(item.end)
    ensures r.description == (if Truthy(item.description) then item.description.value else "")
    ensures r.location == (if Truthy(item.location) then item.location.value else "")
    ensures r.source == "google"
  {
    SyncedEvent(
      LocalId(item.id),
      OrElse(item.summary, Untitled),
      PickTime(item.start),
      PickTime(item.end),
      OrElse(item.description, ""),
      OrElse(item.location, ""),
      "google",
      item.id)
  }

  /** A mapped event's local id is determined by its provider id, and the
      provider id is read back from it. */
  lemma MappedIdsAgree(item: GoogleItem)
    requires item.id.Some?
    ensures ProviderId(MapEvent(item).id) == MapEvent(item).googleEventId
  {
    LocalIdRoundTrip(item.id.value);
  }

  /** `data.items?.map(...) || []`: one event per item in the same order,
      and none when the reply has no `items`. */
  function MapItems(items: Option<seq<GoogleItem>>): (r: seq<SyncedEvent>)
    ensures items.None? ==> r == []
    ensures items.Some? ==> |r| == |items.value|
    ensures items.Some? ==> forall i :: 0 <= i < |r| ==> r[i] == MapEvent(items.value[i])
  {
    match items
    case None => []
    case Some(xs) => MapSeq(xs, MapEvent)
  }

  /** Mapping keeps the order of the items: two runs of items map to the
      two runs of events, in turn. */
  lemma MapItemsKeepsOrder(a: seq<GoogleItem>, b: seq<GoogleItem>)
    ensures MapItems(Some(a + b)) == MapItems(Some(a)) + MapItems(Some(b))
  {
    MapConcat(a, b, MapEvent);
  }

  /** Every synced event is marked as coming from the provider, and no two
      items with distinct ids map to the same local id. */
  lemma SyncedEventsDistinct(items: seq<GoogleItem>, i: int, j: int)
    requires 0 <= i < |items| && 0 <= j < |items|
    requires items[i].id.Some? && items[j].id.Some? && items[i].id != items[j].id
    ensures MapItems(Some(items))[i].source == "google"
    ensures MapItems(Some(items))[i].id != MapItems(Some(items))[j].id
  {
    LocalIdInjective(items[i].id.value, items[j].id.value);
  }

  // ---------------------------------------------------------- the draft

  /** The request body besides `action`, as `createGoogleCalendarEvent`
      reads it. */
  datatype EventData = EventData(
    id: Option<string>,
    title: Option<string>,
    description: Option<string>,
    client: Option<string>,
    employee: Option<string>,
    start: Option<string>,
    end: Option<string>,
    location: Option<string>,
    email: Option<string>,
    phone: Option<string>)

  datatype TimeSlot = TimeSlot(dateTime: Option<string>, timeZone: string)

  /** The event body posted to the provider. */
  datatype GoogleDraft = GoogleDraft(
    summary: Option<string>,
    description: string,
    start: TimeSlot,
    end: TimeSlot,
    location: string)

  const TimeZone := "America/Sao_Paulo"

  /** The description used when the request gives none. */
  function DefaultDescription(client: Option<string>, employee: Option<string>): string
  {
    "Cliente: " + Interpolate(client) + "\nProfissional: " + Interpolate(employee)
  }

  /** `googleEvent`: the title as summary; the description, or one naming
      client and professional; the end, or else the start; the fixed time
      zone on both ends; the location, or "". */
  function BuildDraft(data: EventData): (r: GoogleDraft)
    ensures r.summary == data.title
    ensures Truthy(data.description) ==> r.description == data.description.value
    ensures !Truthy(data.description) ==> r.description == DefaultDescription(data.client, data.employee)
    ensures r.start == TimeSlot(data.start, TimeZone)
    ensures Truthy(data.end) ==> r.end == TimeSlot(data.end, TimeZone)
    ensures !Truthy(data.end) ==> r.end == r.start
    ensures r.location == (if Truthy(data.location) then data.location.value else "")
  {
    GoogleDraft(
      data.title,
      OrElse(data.description, DefaultDescription(data.client, data.employee)),
      TimeSlot(data.start, TimeZone),
      TimeSlot(OrOption(data.end, data.start), TimeZone),
      OrElse(data.location, ""))
  }

  /** The default description has two lines, the client's and the
      professional's, when neither name holds a line break. */
  lemma DefaultDescriptionLines(client: Option<string>, employee: Option<string>)
    requires '\n' !in Interpolate(client) && '\n' !in Interpolate(employee)
    ensures Split(DefaultDescription(client, employee), '\n') ==
      ["Cliente: " + Interpolate(client), "Profissional: " + Interpolate(employee)]
  {
    var a := "Cliente: " + Interpolate(client);
    var b := "Profissional: " + Interpolate(employee);
    DescriptionShape(client, employee);
    SplitConcat(a, b, '\n');
    LabelledLine("Cliente: ", Interpolate(client));
    LabelledLine("Profissional: ", Interpolate(employee));
  }

  /** The default description is the client line, a line break, and the
      professional line. */
  lemma DescriptionShape(client: Option<string>, employee: Option<string>)
    ensures DefaultDescription(client, employee) ==
      ("Cliente: " + Interpolate(client)) + ['\n'] + ("Profissional: " + Interpolate(employee))
  {
  }

  /** A label without line breaks followed by a name without line breaks
      is a single line. */
  lemma LabelledLine(tag: string, name: string)
    requires '\n' !in tag && '\n' !in name
    ensures Split(tag + name, '\n') == [tag + name]
  {
    var line := tag + name;
    forall i | 0 <= i < |line| ensures line[i] != '\n' {
      if i < |tag| {
        assert line[i] == tag[i];
      } else {
        assert line[i] == name[i - |tag|];
      }
    }
    SplitWithoutSep(line, '\n');
  }

  /** The event `createGoogleCalendarEvent` returns:
      `{ id: google-<created id>, ...eventData, google_event_id, source }`. */
  datatype CreatedEvent = CreatedEvent(id: string, data: EventData, googleEventId: Option<string>, source: string)

  /** The spread of the request body comes after the generated id, so an
      `id` in the body replaces it; `google_event_id` and `source` come last. */
  function Created(data: EventData, createdId: Option<string>): (r: CreatedEvent)
    ensures data.id.None? ==> r.id == LocalId(createdId)
    ensures data.id.Some? ==> r.id == data.id.value
    ensures r.data == data && r.googleEventId == createdId && r.source == "google"
  {
    CreatedEvent(if data.id.Some? then data.id.value else LocalId(createdId), data, createdId, "google")
  }

  /** An event created from a body without `id` names its provider event:
      stripping the prefix from its id gives back `google_event_id`, as for
      synced events. A body `id` without the prefix names none. */
  lemma CreatedIdNamesProviderEvent(data: EventData, createdId: Option<string>)
    ensures data.id.None? && createdId.Some? ==>
      ProviderId(Created(data, createdId).id) == Created(data, createdId).googleEventId
    ensures data.id.Some? && !IsPrefix(LocalPrefix, data.id.value) ==>
      ProviderId(Created(data, createdId).id).None?
  {
    if data.id.None? && createdId.Some? {
      LocalIdRoundTrip(createdId.value);
    }
  }

  // ----------------------------------------------------------- operations

  /** `checkGoogleConnection`: false without a provider token or when the
      probe throws; otherwise the probe's `ok`. */
  function CheckConnection<T>(token: Option<string>, probe: Fetched<T>): (r: bool)
    ensures r <==> Truthy(token) && probe.Replied? && probe.ok
  {
    if !Truthy(token) then false
    else match probe
      case Thrown(_) => false
      case Replied(ok, _, _) => ok
  }

  /** `syncGoogleCalendarEvents`: the mapped items, or the error it throws. */
  function SyncEvents(token: Option<string>, reply: Fetched<Option<seq<GoogleItem>>>): (r: Result<seq<SyncedEvent>>)
    ensures !Truthy(token) ==> r == Err(NoToken)
    ensures Truthy(token) && reply.Thrown? ==> r == Err(reply.message)
    ensures Truthy(token) && reply.Replied? && !reply.ok ==> r == Err(ApiError(reply.status))
    ensures r.Ok? <==> Truthy(token) && reply.Replied? && reply.ok
    ensures r.Ok? ==> r.value == MapItems(reply.body)
  {
    if !Truthy(token) then Err(NoToken)
    else match reply
      case Thrown(m) => Err(m)
      case Replied(ok, status, items) =>
        if !ok then Err(ApiError(status)) else Ok(MapItems(items))
  }

  /** `createGoogleCalendarEvent`: posts `BuildDraft(data)` and returns the
      created event, or the error it throws. The reply body is the created
      event's id. */
  function CreateEvent(token: Option<string>, data: EventData, reply: Fetched<Option<string>>): (r: Result<CreatedEvent>)
    ensures !Truthy(token) ==> r == Err(NoToken)
    ensures Truthy(token) && reply.Thrown? ==> r == Err(reply.message)
    ensures Truthy(token) && reply.Replied? && !reply.ok ==> r == Err(ApiError(reply.status))
    ensures r.Ok? <==> Truthy(token) && reply.Replied? && reply.ok
    ensures r.Ok? ==> r.value == Created(data, reply.body)
  {
    if !Truthy(token) then Err(NoToken)
    else match reply
      case Thrown(m) => Err(m)
      case Replied(ok, status, createdId) =>
        if !ok then Err(ApiError(status)) else Ok(Created(data, createdId))
  }

  /** The connection check reports true exactly when a sync would succeed
      on a reply with the same outcome. */
  lemma ConnectedExactlyWhenSyncSucceeds<T>(token: Option<string>, probe: Fetched<T>,
                                            reply: Fetched<Option<seq<GoogleItem>>>)
    requires probe.Thrown? <==> reply.Thrown?
    requires probe.Replied? && reply.Replied? ==> probe.ok == reply.ok
    ensures CheckConnection(token, probe) <==> SyncEvents(token, reply).Ok?
  {
  }

  // ------------------------------------------------------------- handler

  /** The parts of a request the handler reads: the method, the user the
      auth service resolves from the bearer token, and the JSON body. */
  datatype Request = Request(verb: string, user: Option<string>, action: Option<string>, data: EventData)

  /** A signed-in session; `provider_token` is the OAuth token of the
      identity provider, when the sign-in went through one. */
  datatype Session = Session(providerToken: Option<string>)

  /** What `supabase.auth.getSession()` resolves `data` to: an object whose
      only key is `session`, which may be null. */
  datatype SessionData = SessionData(session: Option<Session>)

  /** The provider token as the three actions read it. The destructuring
      `const { data: session }` names the `{ session }` wrapper itself
      `session`, so `session?.provider_token` looks up a key the wrapper
      does not have: the result is `undefined` whatever the session holds. */
  function ProviderTokenAsWritten(data: SessionData): (r: Option<string>)
    ensures !Truthy(r)
  {
    None
  }

  /** The evidently intended reading, `data.session?.provider_token`. */
  function ProviderToken(data: SessionData): (r: Option<string>)
    ensures data.session.None? ==> r == None
  {
    match data.session
    case Some(s) => s.providerToken
    case None => None
  }

  /** What the provider side answers: the session data and the outcome of
      each of the three API calls. */
  datatype Provider = Provider(
    sessionData: SessionData,
    probe: Fetched<()>,
    listing: Fetched<Option<seq<GoogleItem>>>,
    creation: Fetched<Option<string>>)

  /** The JSON body of the response. */
  datatype Payload =
    | Preflight
    | Connected(connected: bool)
    | Events(events: seq<SyncedEvent>)
    | Event(event: CreatedEvent)
    | Failure(error: string)

  datatype Response = Response(status: nat, payload: Payload)

  const Actions: set<string> := {"check_connection", "sync_events", "create_event"}

  /** The `serve` handler, given the token the actions read from the session. */
  function Dispatch(req: Request, token: Option<string>, p: Provider): Response
  {
    if req.verb == "OPTIONS" then Response(200, Preflight)
    else if req.user.None? then Response(500, Failure("Unauthorized"))
    else match req.action
      case Some("check_connection") =>
        Response(200, Connected(CheckConnection(token, p.probe)))
      case Some("sync_events") =>
        (match SyncEvents(token, p.listing)
         case Ok(es) => Response(200, Events(es))
         case Err(m) => Response(500, Failure(m)))
      case Some("create_event") =>
        (match CreateEvent(token, req.data, p.creation)
         case Ok(e) => Response(200, Event(e))
         case Err(m) => Response(500, Failure(m)))
      case _ => Response(500, Failure("Invalid action"))
  }

  /** The handler with the token read as intended. OPTIONS is answered at
      once; a request without a user, with an unknown action, or whose action
      throws gets status 500 and the error's message; otherwise status 200
      carries the connection flag, the synced events or the created event. */
  function Handle(req: Request, p: Provider): (r: Response)
    ensures req.verb == "OPTIONS" ==> r == Response(200, Preflight)
    ensures r.status == 200 || r.status == 500
    ensures r.status == 500 <==> r.payload.Failure?
    ensures req.verb != "OPTIONS" && req.user.None? ==> r == Response(500, Failure("Unauthorized"))
    ensures req.verb != "OPTIONS" && req.user.Some? && (req.action.None? || req.action.value !in Actions)
      ==> r == Response(500, Failure("Invalid action"))
    ensures req.verb != "OPTIONS" && req.user.Some? && req.action == Some("check_connection")
      ==> r == Response(200, Connected(CheckConnection(ProviderToken(p.sessionData), p.probe)))
    ensures req.verb != "OPTIONS" && req.user.Some? && req.action == Some("sync_events")
      && SyncEvents(ProviderToken(p.sessionData), p.listing).Ok?
      ==> r == Response(200, Events(SyncEvents(ProviderToken(p.sessionData), p.listing).value))
    ensures req.verb != "OPTIONS" && req.user.Some? && req.action == Some("create_event")
      && CreateEvent(ProviderToken(p.sessionData), req.data, p.creation).Ok?
      ==> r == Response(200, Event(CreateEvent(ProviderToken(p.sessionData), req.data, p.creation).value))
  {
    Dispatch(req, ProviderToken(p.sessionData), p)
  }

  /** The handler as written, reading the token off the wrapper: a
      signed-in connection check always answers `connected: false`, and sync
      and create always fail with the missing-token message. Requests that
      never reach an action are answered as `Handle` answers them. */
  function HandleAsWritten(req: Request, p: Provider): (r: Response)
    ensures req.verb != "OPTIONS" && req.user.Some? && req.action == Some("check_connection")
      ==> r == Response(200, Connected(false))
    ensures req.verb != "OPTIONS" && req.user.Some? && req.action in {Some("sync_events"), Some("create_event")}
      ==> r == Response(500, Failure(NoToken))
    ensures req.verb == "OPTIONS" || req.user.None? || req.action.None? || req.action.value !in Actions
      ==> r == Handle(req, p)
  {
    Dispatch(req, ProviderTokenAsWritten(p.sessionData), p)
  }

  /** A signed-in user whose session holds a provider token the calendar
      API accepts: the intended reading reports the connection, the code as
      written reports none. */
  lemma AsWrittenMissesSessionToken()
    ensures var p := Provider(SessionData(Some(Session(Some("ya29.token")))),
                              Replied(true, 200, ()), Thrown(""), Thrown(""));
            var req := Request("POST", Some("user-1"), Some("check_connection"),
                               EventData(None, None, None, None, None, None, None, None, None, None));
            Handle(req, p) == Response(200, Connected(true))
            && HandleAsWritten(req, p) == Response(200, Connected(false))
  {
  }

  /** Read as intended, a session's non-empty provider token is what the
      actions send: the connection check reports the probe's `ok`, and a sync
      whose listing succeeds returns its events. */
  lemma SessionTokenReachesApi(req: Request, p: Provider)
    requires req.verb != "OPTIONS" && req.user.Some?
    requires p.sessionData.session.Some? && Truthy(p.sessionData.session.value.providerToken)
    ensures req.action == Some("check_connection") ==>
      Handle(req, p) == Response(200, Connected(p.probe.Replied? && p.probe.ok))
    ensures req.action == Some("sync_events") && p.listing.Replied? && p.listing.ok ==>
      Handle(req, p) == Response(200, Events(MapItems(p.listing.body)))
  {
  }

  /** Without a provider token, a signed-in user's connection check answers
      `connected: false` with status 200, while sync and create fail with
      status 500 and the missing-token message. */
  lemma NoTokenOutcomes(req: Request, p: Provider)
    requires req.verb != "OPTIONS" && req.user.Some? && !Truthy(ProviderToken(p.sessionData))
    ensures req.action == Some("check_connection") ==> Handle(req, p) == Response(200, Connected(false))
    ensures req.action == Some("sync_events") ==> Handle(req, p) == Response(500, Failure(NoToken))
    ensures req.action == Some("create_event") ==> Handle(req, p) == Response(500, Failure(NoToken))
  {
  }

  /** A signed-in request with a known action fails exactly when the action
      it names returns an error, and then carries that error's message. */
  lemma FailsExactlyWhenActionFails(req: Request, p: Provider)
    requires req.verb != "OPTIONS" && req.user.Some?
    ensures var token := ProviderToken(p.sessionData);
      req.action == Some("sync_events") ==>
        (Handle(req, p).status == 500 <==> SyncEvents(token, p.listing).Err?)
        && (SyncEvents(token, p.listing).Err? ==>
              Handle(req, p).payload == Failure(SyncEvents(token, p.listing).message))
    ensures var token := ProviderToken(p.sessionData);
      req.action == Some("create_event") ==>
        (Handle(req, p).status == 500 <==> CreateEvent(token, req.data, p.creation).Err?)
        && (CreateEvent(token, req.data, p.creation).Err? ==>
              Handle(req, p).payload == Failure(CreateEvent(token, req.data, p.creation).message))
  {
  }
}

=== FILE: js.dfy ===
/** JavaScript value conventions the dashboard code relies on: absent or null
    fields, truthiness of strings (`""` is falsy), the `a || b` fallback and
    template-literal rendering. Errors thrown by the code become `Err` values. */
module Js {

  /** A field that may be missing from a JSON object (or be null). */
  datatype Option<+T> = None | Some(value: T)

  /** The outcome of code that either returns a value or throws an Error
      carrying `message`. */
  datatype Result<+T> = Ok(value: T) | Err(message: string)

  /** A string-valued field is truthy when present and non-empty. */
  predicate Truthy(o: Option<string>)
  {
    o.Some? && o.value != ""
  }

  /** `o || fallback` where `fallback` is a string literal. */
  function OrElse(o: Option<string>, fallback: string): string
  {
    if Truthy(o) then o.value else fallback
  }

  /** `a || b` where both sides may be missing. */
  function OrOption(a: Option<string>, b: Option<string>): Option<string>
  {
    if Truthy(a) then a else b
  }

  /** `${o}` inside a template literal: a missing field renders as "undefined". */
  function Interpolate(o: Option<string>): string
  {
    match o
    case Some(s) => s
    case None => "undefined"
  }
}

=== FILE: object_lookup.dfy ===
/** Reading a key from a JavaScript object literal, `colors[key] || fallback`,
    as the Employees and Treatments screens do for badge colours. A plain
    object literal also answers for the members it inherits from
    `Object.prototype`, and each of those is truthy. */
module ObjectLookup {
  import opened Js

  /** A property value: a string, or an inherited built-in (a function, or
      the prototype object for `__proto__`) named by its key. */
  datatype Value = Text(s: string) | Builtin(name: string)

  /** The keys every object literal inherits from `Object.prototype`. */
  const PrototypeKeys: set<string> :=
    {"constructor", "hasOwnProperty", "isPrototypeOf", "propertyIsEnumerable",
     "toLocaleString", "toString", "valueOf", "__defineGetter__",
     "__defineSetter__", "__lookupGetter__", "__lookupSetter__", "__proto__"}

  /** `obj[key] || fallback` as JavaScript evaluates it, where `own` is the
      literal's own property for `key`: a non-empty own string first, then an
      inherited member, which is truthy, then the fallback. */
  function LookupOr(own: Option<string>, key: string, fallback: string): (r: Value)
    ensures r.Builtin? <==> own.None? && key in PrototypeKeys
    ensures r.Builtin? ==> r.name == key
    ensures own.Some? && own.value != "" ==> r == Text(own.value)
    ensures r.Text? && !(own.Some? && own.value != "") ==> r == Text(fallback)
  {
    match own
    case Some(v) => Text(if v != "" then v else fallback)
    case None => if key in PrototypeKeys then Builtin(key) else Text(fallback)
  }

  /** `Object.hasOwn(obj, key) && obj[key] || fallback`: own properties only. */
  function OwnLookupOr(own: Option<string>, fallback: string): string
  {
    OrElse(own, fallback)
  }
}

=== FILE: seqs.dfy ===
/** `Array.prototype.filter` and `Array.prototype.map` on immutable sequences. */
module Seqs {

  /** `s.map(f)`. */
  function MapSeq<T, U>(s: seq<T>, f: T -> U): (r: seq<U>)
    ensures |r| == |s|
    ensures forall i :: 0 <= i < |s| ==> r[i] == f(s[i])
  {
    seq(|s|, i requires 0 <= i < |s| => f(s[i]))
  }

  /** `s.filter(keep)`. */
  function Filter<T>(s: seq<T>, keep: T -> bool): (r: seq<T>)
    ensures |r| <= |s|
    ensures forall i :: 0 <= i < |r| ==> keep(r[i])
    decreases |s|
  {
    if s == [] then []
    else
      var rest := Filter(s[1..], keep);
      if keep(s[0]) then [s[0]] + rest else rest
  }

  /** The filter keeps exactly the elements satisfying `keep`, each as often
      as it occurs in `s`. */
  lemma {:induction false} FilterCount<T>(s: seq<T>, keep: T -> bool, x: T)
    ensures multiset(Filter(s, keep))[x] == if keep(x) then multiset(s)[x] else 0
    decreases |s|
  {
    if s != [] {
      FilterCount(s[1..], keep, x);
      assert s == [s[0]] + s[1..];
    }
  }

  /** Everything the filter returns is in `s` and satisfies `keep`. */
  lemma FilterMember<T>(s: seq<T>, keep: T -> bool, x: T)
    requires x in Filter(s, keep)
    ensures x in s && keep(x)
  {
    FilterCount(s, keep, x);
    assert x in multiset(Filter(s, keep));
  }

  /** Filtering keeps the order of the input: it distributes over concatenation. */
  lemma {:induction false} FilterConcat<T>(a: seq<T>, b: seq<T>, keep: T -> bool)
    ensures Filter(a + b, keep) == Filter(a, keep) + Filter(b, keep)
    decreases |a|
  {
    if a == [] {
      assert a + b == b;
    } else {
      assert (a + b)[1..] == a[1..] + b;
      FilterConcat(a[1..], b, keep);
    }
  }

  /** Filtering one element keeps it or drops it. */
  lemma FilterOne<T>(x: T, keep: T -> bool)
    ensures Filter([x], keep) == if keep(x) then [x] else []
  {
    assert [x][1..] == [];
  }

  /** When every element is kept, the filter is the identity. */
  lemma {:induction false} FilterKeepsAll<T>(s: seq<T>, keep: T -> bool)
    requires forall i :: 0 <= i < |s| ==> keep(s[i])
    ensures Filter(s, keep) == s
    decreases |s|
  {
    if s != [] {
      FilterKeepsAll(s[1..], keep);
    }
  }

  /** When no element is kept, the filter is empty. */
  lemma {:induction false} FilterDropsAll<T>(s: seq<T>, keep: T -> bool)
    requires forall i :: 0 <= i < |s| ==> !keep(s[i])
    ensures Filter(s, keep) == []
    decreases |s|
  {
    if s != [] {
      FilterDropsAll(s[1..], keep);
    }
  }

  /** Two filters that agree on every element give the same result. */
  lemma {:induction false} FilterAgree<T>(s: seq<T>, p: T -> bool, q: T -> bool)
    requires forall i :: 0 <= i < |s| ==> p(s[i]) == q(s[i])
    ensures Filter(s, p) == Filter(s, q)
    decreases |s|
  {
    if s != [] {
      FilterAgree(s[1..], p, q);
    }
  }

  /** Every element of a mapped sequence is the image of some element. */
  lemma MapSeqIndex<T, U>(s: seq<T>, f: T -> U, y: U) returns (j: nat)
    requires y in MapSeq(s, f)
    ensures j < |s| && y == f(s[j])
  {
    var t := MapSeq(s, f);
    var k :| 0 <= k < |t| && t[k] == y;
    j := k;
  }

  /** Mapping distributes over concatenation. */
  lemma MapConcat<T, U>(a: seq<T>, b: seq<T>, f: T -> U)
    ensures MapSeq(a + b, f) == MapSeq(a, f) + MapSeq(b, f)
  {
  }
}

=== FILE: strings.dfy ===
/** The `String.prototype` operations the screens use: case mapping (ASCII
    letters only), `includes`, `trim`, `split` on one character and
    `Array.prototype.join`. */
module Strings {

  function LowerChar(c: char): char
  {
    if 'A' <= c <= 'Z' then (c as int + 32) as char else c
  }

  function UpperChar(c: char): char
  {
    if 'a' <= c <= 'z' then (c as int - 32) as char else c
  }

  /** `s.toLowerCase()` on ASCII letters; every other character is kept. */
  function Lower(s: string): (r: string)
    ensures |r| == |s|
    ensures forall i :: 0 <= i < |r| ==> !('A' <= r[i] <= 'Z')
    ensures forall i :: 0 <= i < |s| && !('A' <= s[i] <= 'Z') ==> r[i] == s[i]
    ensures forall i :: 0 <= i < |s| ==> UpperChar(r[i]) == UpperChar(s[i])
  {
    seq(|s|, i requires 0 <= i < |s| => LowerChar(s[i]))
  }

  /** `s.toUpperCase()` on ASCII letters; every other character is kept. */
  function Upper(s: string): (r: string)
    ensures |r| == |s|
    ensures forall i :: 0 <= i < |r| ==> !('a' <= r[i] <= 'z')
    ensures forall i :: 0 <= i < |s| && !('a' <= s[i] <= 'z') ==> r[i] == s[i]
    ensures forall i :: 0 <= i < |s| ==> LowerChar(r[i]) == LowerChar(s[i])
  {
    seq(|s|, i requires 0 <= i < |s| => UpperChar(s[i]))
  }

  predicate IsPrefix(p: string, s: string)
  {
    |p| <= |s| && s[..|p|] == p
  }

  /** `hay.includes(needle)`: `needle` occurs at some position of `hay`. */
  predicate Contains(hay: string, needle: string)
    decreases |hay|
  {
    IsPrefix(needle, hay) || (hay != [] && Contains(hay[1..], needle))
  }

  /** `includes` finds exactly the occurrences at some index: the recursive
      definition agrees with the slice-based one in both directions. */
  lemma {:induction false} ContainsAt(hay: string, needle: string, i: int)
    requires 0 <= i <= |hay| - |needle|
    requires hay[i..i + |needle|] == needle
    ensures Contains(hay, needle)
    decreases i
  {
    if i > 0 {
      assert hay[1..][i - 1..i - 1 + |needle|] == hay[i..i + |needle|];
      ContainsAt(hay[1..], needle, i - 1);
    } else {
      assert hay[..|needle|] == needle;
    }
  }

  lemma {:induction false} ContainsWitness(hay: string, needle: string) returns (i: int)
    requires Contains(hay, needle)
    ensures 0 <= i <= |hay| - |needle| && hay[i..i + |needle|] == needle
    decreases |hay|
  {
    if IsPrefix(needle, hay) {
      i := 0;
    } else {
      var j := ContainsWitness(hay[1..], needle);
      assert hay[1..][j..j + |needle|] == hay[j + 1..j + 1 + |needle|];
      i := j + 1;
    }
  }

  /** Every string includes the empty string. */
  lemma ContainsEmpty(hay: string)
    ensures Contains(hay, "")
  {
  }

  /** The characters `String.prototype.trim` removes: the ECMAScript
      WhiteSpace and LineTerminator code points. */
  predicate IsSpace(c: char)
  {
    || c == '\t' || c == '\n' || c == '\U{000B}' || c == '\U{000C}' || c == '\r'
    || c == ' ' || c == '\U{00A0}' || c == '\U{1680}'
    || ('\U{2000}' <= c <= '\U{200A}')
    || c == '\U{2028}' || c == '\U{2029}' || c == '\U{202F}' || c == '\U{205F}'
    || c == '\U{3000}' || c == '\U{FEFF}'
  }

  function TrimStart(s: string): (r: string)
    ensures |r| <= |s|
    ensures r == [] || !IsSpace(r[0])
    ensures r == [] || r[|r| - 1] == s[|s| - 1]
    ensures r == s[|s| - |r|..]
    ensures forall k :: 0 <= k < |s| - |r| ==> IsSpace(s[k])
    decreases |s|
  {
    if s != [] && IsSpace(s[0]) then TrimStart(s[1..]) else s
  }

  function TrimEnd(s: string): (r: string)
    ensures |r| <= |s|
    ensures r == [] || !IsSpace(r[|r| - 1])
    ensures r == s[..|r|]
    ensures forall k :: |r| <= k < |s| ==> IsSpace(s[k])
    decreases |s|
  {
    if s != [] && IsSpace(s[|s| - 1]) then TrimEnd(s[..|s| - 1]) else s
  }

  /** No whitespace at either end. */
  predicate Trimmed(s: string)
  {
    s == [] || (!IsSpace(s[0]) && !IsSpace(s[|s| - 1]))
  }

  /** `s.trim()`: the result has no whitespace at either end and is the
      piece of `s` left once a leading and a trailing run of whitespace are
      cut off. */
  function Trim(s: string): (r: string)
    ensures Trimmed(r)
    ensures |r| <= |s|
    ensures exists i, j ::
      && 0 <= i <= j <= |s| && r == s[i..j]
      && (forall k :: 0 <= k < i ==> IsSpace(s[k]))
      && (forall k :: j <= k < |s| ==> IsSpace(s[k]))
  {
    var t := TrimStart(s);
    var r := TrimEnd(t);
    assert r == [] || r[0] == t[0];
    assert t == s[|s| - |t|..];
    assert r == s[|s| - |t|..|s| - |t| + |r|];
    r
  }

  /** `trim` only removes characters: a character absent from `s` is absent
      from `s.trim()`. */
  lemma TrimKeepsAbsent(s: string, c: char)
    requires c !in s
    ensures c !in Trim(s)
  {
    var t := TrimStart(s);
    assert c !in t by {
      forall i | 0 <= i < |t| ensures t[i] != c {
        assert t[i] == s[|s| - |t| + i];
      }
    }
    var r := TrimEnd(t);
    forall i | 0 <= i < |r| ensures r[i] != c {
      assert r[i] == t[i];
    }
  }

  /** Trimming a string that is already trimmed changes nothing. */
  lemma TrimOfTrimmed(s: string)
    requires Trimmed(s)
    ensures Trim(s) == s
  {
  }

  /** A leading space in front of a trimmed, non-empty string is all `trim` removes. */
  lemma TrimSpaceThen(s: string)
    requires Trimmed(s) && s != []
    ensures Trim(" " + s) == s
  {
    assert (" " + s)[1..] == s;
    assert TrimStart(" " + s) == s;
  }

  /** A space on each side of a trimmed, non-empty string is all `trim` removes. */
  lemma TrimSpaceAround(s: string)
    requires Trimmed(s) && s != []
    ensures Trim(" " + s + " ") == s
  {
    var padded := " " + s + " ";
    assert padded[1..] == s + " ";
    assert TrimStart(s + " ") == s + " ";
    assert (s + " ")[..|s|] == s;
    assert TrimEnd(s) == s;
  }

  /** `s.split(sep)` for a one-character separator: the pieces between the
      separators, always at least one (`"".split(",")` is `[""]`). */
  function Split(s: string, sep: char): (r: seq<string>)
    ensures |r| >= 1
    ensures s == "" ==> r == [""]
    decreases |s|
  {
    if s == [] then [""]
    else
      var rest := Split(s[1..], sep);
      if s[0] == sep then [""] + rest
      else [[s[0]] + rest[0]] + rest[1..]
  }

  /** `xs.join(sep)`. */
  function Join(xs: seq<string>, sep: string): (r: string)
    ensures xs == [] ==> r == ""
    ensures |xs| >= 1 ==> IsPrefix(xs[0], r)
    decreases |xs|
  {
    if |xs| == 0 then ""
    else if |xs| == 1 then xs[0]
    else xs[0] + sep + Join(xs[1..], sep)
  }

  /** `split` returns one piece more than there are separators. */
  lemma {:induction false} SplitCount(s: string, sep: char)
    ensures |Split(s, sep)| == multiset(s)[sep] + 1
    decreases |s|
  {
    if s != [] {
      assert s == [s[0]] + s[1..];
      SplitCount(s[1..], sep);
    }
  }

  /** No piece returned by `split` contains the separator. */
  lemma {:induction false} SplitPiecesFree(s: string, sep: char)
    ensures forall i :: 0 <= i < |Split(s, sep)| ==> sep !in Split(s, sep)[i]
    decreases |s|
  {
    if s != [] {
      SplitPiecesFree(s[1..], sep);
    }
  }

  /** Joining the pieces of a split with the separator gives back the string. */
  lemma {:induction false} JoinSplit(s: string, sep: char)
    ensures Join(Split(s, sep), [sep]) == s
    decreases |s|
  {
    if s != [] {
      var rest := Split(s[1..], sep);
      JoinSplit(s[1..], sep);
      if s[0] == sep {
        assert Join([""] + rest, [sep]) == "" + [sep] + Join(rest, [sep]);
      } else {
        var xs := [[s[0]] + rest[0]] + rest[1..];
        if |rest| == 1 {
          assert Join(xs, [sep]) == [s[0]] + rest[0];
        } else {
          assert xs[1..] == rest[1..];
          assert Join(rest, [sep]) == rest[0] + [sep] + Join(rest[1..], [sep]);
        }
      }
    }
  }

  /** Splitting at a separator between `a` and `b` splits `a` and `b` apart. */
  lemma {:induction false} SplitConcat(a: string, b: string, sep: char)
    ensures Split(a + [sep] + b, sep) == Split(a, sep) + Split(b, sep)
    decreases |a|
  {
    if a == [] {
      assert (a + [sep] + b)[1..] == b;
    } else {
      assert (a + [sep] + b)[1..] == a[1..] + [sep] + b;
      SplitConcat(a[1..], b, sep);
    }
  }

  /** A string without the separator splits into itself. */
  lemma {:induction false} SplitWithoutSep(s: string, sep: char)
    requires sep !in s
    ensures Split(s, sep) == [s]
    decreases |s|
  {
    if s != [] {
      assert sep !in s[1..] by {
        forall i | 0 <= i < |s[1..]| ensures s[1..][i] != sep {
          assert s[1..][i] == s[i + 1];
        }
      }
      SplitWithoutSep(s[1..], sep);
      assert [s[0]] + s[1..] == s;
    }
  }

  /** Splitting undoes joining when no piece contains the separator. */
  lemma {:induction false} SplitJoin(xs: seq<string>, sep: char)
    requires |xs| >= 1
    requires forall i :: 0 <= i < |xs| ==> sep !in xs[i]
    ensures Split(Join(xs, [sep]), sep) == xs
    decreases |xs|
  {
    if |xs| == 1 {
      SplitWithoutSep(xs[0], sep);
    } else {
      SplitJoin(xs[1..], sep);
      SplitConcat(xs[0], Join(xs[1..], [sep]), sep);
      SplitWithoutSep(xs[0], sep);
      assert [xs[0]] + xs[1..] == xs;
    }
  }

  /** `", "`-joining is `","`-joining after prefixing every piece but the
      first with a space (and the first with `p`). */
  lemma {:induction false} JoinCommaSpace(p: string, xs: seq<string>)
    requires |xs| >= 1
    ensures Join([p + xs[0]] + SpaceEach(xs[1..]), ",") == p + Join(xs, ", ")
    decreases |xs|
  {
    var ys := [p + xs[0]] + SpaceEach(xs[1..]);
    if |xs| > 1 {
      var rest := xs[1..];
      assert ys[1..] == [" " + rest[0]] + SpaceEach(rest[1..]);
      JoinCommaSpace(" ", rest);
      var tail := Join(rest, ", ");
      calc {
        Join(ys, ",");
        (p + xs[0]) + "," + Join(ys[1..], ",");
        (p + xs[0]) + "," + (" " + tail);
        p + (xs[0] + ", " + tail);
        p + Join(xs, ", ");
      }
    }
  }

  function SpaceEach(xs: seq<string>): (r: seq<string>)
    ensures |r| == |xs|
    ensures forall i :: 0 <= i < |xs| ==> r[i] == " " + xs[i]
  {
    seq(|xs|, i requires 0 <= i < |xs| => " " + xs[i])
  }
}

=== FILE: treatments.dfy ===
/** The Treatments screen (src/pages/Treatments.tsx): an in-memory catalogue
    of treatments with a search box, a create/edit dialog whose price and
    duration are typed as text and read back with `Number`, deletion by id
    and the category badge colour. */
module Treatments {
  import opened Js
  import opened Seqs
  import opened Strings
  import opened Decimal
  import ObjectLookup

  datatype Treatment = Treatment(
    id: int,
    name: string,
    description: string,
    price: Amount,
    duration: Amount,
    category: string,
    status: string)

  /** The dialog's text fields. */
  datatype Form = Form(name: string, description: string, price: string, duration: string, category: string)

  const BlankForm := Form("", "", "", "", "")

  datatype Screen = Screen(
    treatments: seq<Treatment>,
    dialogOpen: bool,
    editing: Option<Treatment>,
    searchTerm: string,
    form: Form)

  // ---------------------------------------------------------------- search

  /** The lower-cased name or category includes the lower-cased term. */
  predicate Matches(t: Treatment, term: string)
  {
    Contains(Lower(t.name), Lower(term)) || Contains(Lower(t.category), Lower(term))
  }

  function MatchesTerm(term: string): Treatment -> bool
  {
    (t: Treatment) => Matches(t, term)
  }

  /** `filteredTreatments`. */
  function FilterTreatments(ts: seq<Treatment>, term: string): (r: seq<Treatment>)
    ensures |r| <= |ts|
    ensures forall i :: 0 <= i < |r| ==> Matches(r[i], term)
  {
    Filter(ts, MatchesTerm(term))
  }

  /** The search shows exactly the matching treatments, each as often as in the list. */
  lemma FilterTreatmentsExact(ts: seq<Treatment>, term: string, t: Treatment)
    ensures multiset(FilterTreatments(ts, term))[t] == if Matches(t, term) then multiset(ts)[t] else 0
  {
    FilterCount(ts, MatchesTerm(term), t);
  }

  /** The search keeps the catalogue's order. */
  lemma FilterTreatmentsKeepsOrder(a: seq<Treatment>, b: seq<Treatment>, term: string)
    ensures FilterTreatments(a + b, term) == FilterTreatments(a, term) + FilterTreatments(b, term)
  {
    FilterConcat(a, b, MatchesTerm(term));
  }

  /** An empty search shows the whole catalogue. */
  lemma EmptySearchShowsAll(ts: seq<Treatment>)
    ensures FilterTreatments(ts, "") == ts
  {
    forall i | 0 <= i < |ts| ensures MatchesTerm("")(ts[i]) {
      ContainsEmpty(Lower(ts[i].name));
    }
    FilterKeepsAll(ts, MatchesTerm(""));
  }

  // ------------------------------------------------------ edit, add, delete

  /** `{ ...t, ...formData, price: Number(formData.price), duration: Number(formData.duration) }`. */
  function ApplyForm(t: Treatment, form: Form): Treatment
  {
    t.(name := form.name, description := form.description, category := form.category,
       price := ToNumber(form.price), duration := ToNumber(form.duration))
  }

  function Replacer(id: int, form: Form): Treatment -> Treatment
  {
    (t: Treatment) => if t.id == id then ApplyForm(t, form) else t
  }

  /** The edit branch of `handleSubmit`: every treatment with the edited id
      takes the form's text fields and its numbers read with `Number`, and
      keeps its id and status; every other treatment and the length are
      unchanged. */
  function EditTreatments(ts: seq<Treatment>, id: int, form: Form): (r: seq<Treatment>)
    ensures |r| == |ts|
    ensures forall i :: 0 <= i < |ts| && ts[i].id != id ==> r[i] == ts[i]
    ensures forall i :: 0 <= i < |ts| && ts[i].id == id ==>
      && r[i].id == id && r[i].status == ts[i].status
      && r[i].name == form.name && r[i].description == form.description
      && r[i].category == form.category
      && r[i].price == ToNumber(form.price) && r[i].duration == ToNumber(form.duration)
  {
    MapSeq(ts, Replacer(id, form))
  }

  /** The add branch of `handleSubmit`: one treatment appended after the
      unchanged catalogue, with id `length + 1` and status "active". */
  function AddTreatment(ts: seq<Treatment>, form: Form): (r: seq<Treatment>)
    ensures |r| == |ts| + 1 && r[..|ts|] == ts
    ensures r[|ts|].id == |ts| + 1 && r[|ts|].status == "active"
    ensures r[|ts|].name == form.name && r[|ts|].description == form.description
    ensures r[|ts|].category == form.category
    ensures r[|ts|].price == ToNumber(form.price) && r[|ts|].duration == ToNumber(form.duration)
  {
    ts + [Treatment(|ts| + 1, form.name, form.description, ToNumber(form.price),
                    ToNumber(form.duration), form.category, "active")]
  }

  function KeepOther(id: int): Treatment -> bool
  {
    (t: Treatment) => t.id != id
  }

  /** `handleDelete`. */
  function DeleteTreatment(ts: seq<Treatment>, id: int): (r: seq<Treatment>)
    ensures |r| <= |ts|
    ensures forall i :: 0 <= i < |r| ==> r[i].id != id
  {
    Filter(ts, KeepOther(id))
  }

  /** After deletion every treatment with the id is gone and every other one
      stays, as often as before. */
  lemma DeleteTreatmentExact(ts: seq<Treatment>, id: int, t: Treatment)
    ensures multiset(DeleteTreatment(ts, id))[t] == if t.id == id then 0 else multiset(ts)[t]
  {
    FilterCount(ts, KeepOther(id), t);
  }

  /** Deletion keeps the order of the treatments that stay. */
  lemma DeleteKeepsOrder(a: seq<Treatment>, b: seq<Treatment>, id: int)
    ensures DeleteTreatment(a + b, id) == DeleteTreatment(a, id) + DeleteTreatment(b, id)
  {
    FilterConcat(a, b, KeepOther(id));
  }

  // ------------------------------------------------------------ the dialog

  /** `handleEdit`: the dialog opens on the treatment, its price and duration
      rendered with `toString`. */
  function OpenEdit(s: Screen, t: Treatment): (r: Screen)
    ensures r.treatments == s.treatments && r.searchTerm == s.searchTerm
    ensures r.dialogOpen && r.editing == Some(t)
    ensures r.form.name == t.name && r.form.description == t.description
    ensures r.form.category == t.category
    ensures t.price.Whole? ==> ToNumber(r.form.price) == t.price
    ensures t.duration.Whole? ==> ToNumber(r.form.duration) == t.duration
  {
    NumberOfAmountText(t.price);
    NumberOfAmountText(t.duration);
    s.(dialogOpen := true, editing := Some(t),
       form := Form(t.name, t.description, AmountToString(t.price),
                    AmountToString(t.duration), t.category))
  }

  /** `Number(a.toString())` gives back a whole amount. */
  lemma NumberOfAmountText(a: Amount)
    ensures a.Whole? ==> ToNumber(AmountToString(a)) == a
  {
    if a.Whole? {
      NumberOfToString(a.n);
    }
  }

  /** `handleSubmit`: edit the treatment being edited, or add a new one; then
      close the dialog, forget the edited treatment and blank the form. */
  function Submit(s: Screen): (r: Screen)
    ensures !r.dialogOpen && r.editing == None && r.form == BlankForm
    ensures r.searchTerm == s.searchTerm
    ensures s.editing.Some? ==> r.treatments == EditTreatments(s.treatments, s.editing.value.id, s.form)
    ensures s.editing.None? ==> r.treatments == AddTreatment(s.treatments, s.form)
  {
    var ts := match s.editing
      case Some(t) => EditTreatments(s.treatments, t.id, s.form)
      case None => AddTreatment(s.treatments, s.form);
    Screen(ts, false, None, s.searchTerm, BlankForm)
  }

  /** Opening a treatment and saving without touching the form leaves the
      catalogue as it was: whole prices and durations survive the
      `toString`/`Number` round trip, provided no other treatment shares the id. */
  lemma SaveUnchangedKeepsList(s: Screen, t: Treatment)
    requires forall i :: 0 <= i < |s.treatments| && s.treatments[i].id == t.id ==> s.treatments[i] == t
    requires t.price.Whole? && t.duration.Whole?
    ensures Submit(OpenEdit(s, t)).treatments == s.treatments
  {
    var form := OpenEdit(s, t).form;
    assert ApplyForm(t, form) == t;
    EditWithOwnForm(s.treatments, t, form);
  }

  /** Editing with a form that changes nothing on the one treatment holding
      the id leaves the catalogue as it was. */
  lemma EditWithOwnForm(ts: seq<Treatment>, t: Treatment, form: Form)
    requires ApplyForm(t, form) == t
    requires forall i :: 0 <= i < |ts| && ts[i].id == t.id ==> ts[i] == t
    ensures EditTreatments(ts, t.id, form) == ts
  {
    var r := EditTreatments(ts, t.id, form);
    forall i | 0 <= i < |ts| ensures r[i] == ts[i] {
      assert r[i] == Replacer(t.id, form)(ts[i]);
    }
  }

  // -------------------------------------------------------------- display

  const Gray := "bg-gray-100 text-gray-800"

  /** The own properties of `getCategoryColor`'s `colors` literal. */
  function CategoryColorEntry(category: string): Option<string>
  {
    if category == "Facial" then Some("bg-blue-100 text-blue-800")
    else if category == "Injet\U{00E1}veis" then Some("bg-purple-100 text-purple-800")
    else if category == "Corporal" then Some("bg-green-100 text-green-800")
    else None
  }

  /** `getCategoryColor` as written: `colors[category] || gray` on an object
      literal, so a category named after an `Object.prototype` member yields
      that member. */
  function CategoryColorAsWritten(category: string): (r: ObjectLookup.Value)
    ensures category == "Facial" ==> r == ObjectLookup.Text("bg-blue-100 text-blue-800")
    ensures category == "Injet\U{00E1}veis" ==> r == ObjectLookup.Text("bg-purple-100 text-purple-800")
    ensures category == "Corporal" ==> r == ObjectLookup.Text("bg-green-100 text-green-800")
    ensures category !in {"Facial", "Injet\U{00E1}veis", "Corporal"} ==>
      (r == ObjectLookup.Builtin(category) <==> category in ObjectLookup.PrototypeKeys)
    ensures category !in {"Facial", "Injet\U{00E1}veis", "Corporal"} && category !in ObjectLookup.PrototypeKeys ==>
      r == ObjectLookup.Text(Gray)
  {
    ObjectLookup.LookupOr(CategoryColorEntry(category), category, Gray)
  }

  /** A category called "toString" gets `Object.prototype.toString` as its
      badge class instead of the gray default. */
  lemma CategoryColorToStringIsNotGray()
    ensures CategoryColorAsWritten("toString") == ObjectLookup.Builtin("toString")
    ensures CategoryColorAsWritten("toString") != ObjectLookup.Text(Gray)
  {
    assert "toString"[0] != "Corporal"[0];
  }

  /** `getCategoryColor` as intended: the three known categories have their
      colours, any other text gets the gray default. */
  function CategoryColor(category: string): (r: string)
    ensures category == "Facial" ==> r == "bg-blue-100 text-blue-800"
    ensures category == "Injet\U{00E1}veis" ==> r == "bg-purple-100 text-purple-800"
    ensures category == "Corporal" ==> r == "bg-green-100 text-green-800"
    ensures category !in {"Facial", "Injet\U{00E1}veis", "Corporal"} ==> r == Gray
  {
    ObjectLookup.OwnLookupOr(CategoryColorEntry(category), Gray)
  }

  /** No known category is an `Object.prototype` key. */
  lemma KnownCategoriesAreOwn(category: string)
    requires CategoryColorEntry(category).Some?
    ensures category !in ObjectLookup.PrototypeKeys
  {
    assert "Corporal"[0] != "toString"[0];
  }

  /** The written lookup and the intended one agree exactly on the
      categories that are not `Object.prototype` keys. */
  lemma CategoryColorAgreesOffPrototype(category: string)
    ensures CategoryColorAsWritten(category) == ObjectLookup.Text(CategoryColor(category))
        <==> category !in ObjectLookup.PrototypeKeys
  {
    if CategoryColorEntry(category).Some? {
      KnownCategoriesAreOwn(category);
    }
  }
}
